=== FILE: README.md ===
# Fruit-gathering village: a Dafny model of the game core

This project models the rules of a browser 3D game. The player gathers fruit and mushrooms, keeps them in a 50-slot bag and a 200-slot storage, and trades items with four NPCs: a rabbit, a fox, a deer and an owl. The NPCs run a small AI state machine driven by personality, mood and energy. A smart camera follows the player with a clamped orbit and zoom.

The model follows the JavaScript classes closely:

- `Inventory` covers `Inventory`: bag and storage, item catalogue, transfers, category query and total value.
- `Catalog` holds the item table.
- `Selection` covers the trade panel's toggled selection lists.
- `Trade` covers `Game.executeTrade` and the `TradeSystem` class.
- `Npc` covers the base `NPC`: dialog cycling, interaction cooldown and trade offer.
- `SmartNpc` covers `SmartNPC`: defaults, personality set-up, the AI state machine, mood and energy, and the `interact` override.
- `NpcManager` covers `SmartNPCManager`: the four NPCs, the proximity interaction and the lookup by name.
- `Camera` covers `SmartCamera`.
- `Environment` covers collectibles, buildings and random placement.
- `World` covers the `Game` glue: `checkCollectibles` and the NPC-then-building-then-collectible priority of `handlePlayerInteraction`.

Positions are points with real coordinates. The source's `distance <= r` is stated as `r >= 0 && |a-b|^2 <= r^2` (`Geometry.WithinDist`). `distance < r` is stated as `r > 0 && |a-b|^2 < r^2` (`Geometry.CloserThan`). No square root is needed.

`Math.random()` becomes explicit draws in `[0, 1)` given as parameters. `Date.now()` becomes a timestamp parameter. JavaScript's `||` defaulting is modelled for the falsy values each option can take: an absent number and `0` both take the default (`SmartNpc.OrDefault`), an empty name becomes `NPC`, and an absent or empty personality is written `None` in the configuration and becomes friendly. Falsy values of other types (`null`, `false`, `NaN`) are not represented.

## Model

| member | source | states |
|---|---|---|
| Catalog.ValueOf | js/Inventory.js:505-508 | An item's value is its catalogue value, 0 for a name not in the catalogue, never negative |
| Inventory.Add | js/Inventory.js:67-88 | One container's add succeeds exactly for a catalogue name while the counter is below the limit, whatever the quantity. On success the entry and the counter grow by the quantity and no other entry changes. On refusal nothing changes |
| Inventory.Remove | js/Inventory.js:90-104 | A remove succeeds exactly when the entry holds at least the quantity. On success the counter drops by it and the entry drops by it, or disappears when it reaches 0. Other entries are untouched |
| Inventory.AddKeepsTallied | js/Inventory.js:67-88 | A positive add keeps the container invariant: catalogue names, positive counts, counter equal to the sum of the counts |
| Inventory.RemoveKeepsTallied | js/Inventory.js:90-104 | A positive remove keeps the container invariant, and every remaining count stays positive |
| Inventory.AddWorth | js/Inventory.js:67-88 | A successful add raises the value of the contents by quantity times the item value |
| Inventory.RemoveWorth | js/Inventory.js:90-104 | A successful remove lowers the value of the contents by quantity times the item value |
| Inventory.AddItem | js/Inventory.js:67-88 | `addItem` succeeds exactly for a catalogue name while the bag counter is below 50. It never touches storage, and a refusal changes nothing |
| Inventory.RemoveItem | js/Inventory.js:90-108 | `removeItem` succeeds exactly when `hasItem` holds. It never touches storage, and a refusal changes nothing |
| Inventory.AddToStorage | js/Inventory.js:118-137 | `addToStorage` succeeds exactly for a catalogue name while the storage counter is below 200. It never touches the bag, and a refusal changes nothing |
| Inventory.RemoveFromStorage | js/Inventory.js:139-152 | `removeFromStorage` succeeds exactly when storage holds the quantity. It never touches the bag, and a refusal changes nothing |
| Inventory.TransferToStorage | js/Inventory.js:154-170 | A transfer to storage succeeds exactly when the bag holds the quantity, the name is in the catalogue and the storage counter is below 200. On success the bag entry drops by the quantity and the storage entry rises by it. Without the items it fails with no change |
| Inventory.TransferFromStorage | js/Inventory.js:172-189 | A transfer from storage succeeds exactly when storage holds the items and the bag counter plus the quantity stays within 50. On success the storage entry drops by the quantity and no other entry of either container changes. The bag entry rises by the quantity for a catalogue name; for a name outside the catalogue the ignored `addItem` refusal leaves the bag as it was, so the items are lost. A refusal changes nothing |
| Inventory.ItemsByCategory | js/Inventory.js:492-503 | The category query returns exactly the bag entries whose catalogue category matches, with their counts |
| Inventory.TotalValue | js/Inventory.js:510-518 | The loop over the bag returns the sum of count times value over all entries |
| Inventory.EmptyIsValid | js/Inventory.js:2-8 | The freshly constructed inventory satisfies the inventory invariant |
| Inventory.AddItemKeepsValid | js/Inventory.js:67-88 | A unit add, or an add the caller has checked against the limit, keeps the bag within 50 and the invariant intact |
| Inventory.AddItemIgnoresQuantity | js/Inventory.js:73-76 | The bag limit test ignores the quantity: from 49 items an add of 10 succeeds and leaves 59 |
| Inventory.RemoveItemKeepsValid | js/Inventory.js:90-104 | `removeItem` keeps the inventory invariant |
| Inventory.AddToStorageKeepsValid | js/Inventory.js:118-137 | `addToStorage` keeps the inventory invariant (storage limit excepted, see Findings) |
| Inventory.RemoveFromStorageKeepsValid | js/Inventory.js:139-152 | `removeFromStorage` keeps the inventory invariant |
| Inventory.RemoveThenAddRestores | js/Inventory.js:160-167 | Adding back what was just removed restores the bag exactly. This is the rollback `transferToStorage` relies on |
| Inventory.TransferToStorageSound | js/Inventory.js:154-170 | A transfer to storage keeps the invariant and conserves every item across bag and storage. On success the bag counter falls and the storage counter rises by the quantity. A failed transfer leaves the inventory exactly as it was |
| Inventory.TransferFromStorageSound | js/Inventory.js:172-189 | A transfer from storage keeps the invariant and the bag limit and conserves every item. On success the named bag entry and the bag counter rise by the quantity, and the storage counter falls by it |
| Inventory.CategoriesPartitionBag | js/Inventory.js:492-503 | Each bag entry appears in the query for its own category and in no other |
| Inventory.TotalValueTracksChanges | js/Inventory.js:505-518 | The bag's total value moves by quantity times value with every successful add and remove |
| Inventory.StorageOverflowsAsWritten | js/Inventory.js:123-126 | As written, a valid inventory with 195 stored items accepts a transfer of 10 and ends with 205 stored |
| Inventory.AddToStorageBounded | js/Inventory.js:118-137 | The corrected storage add succeeds exactly when the counter plus the quantity stays within 200, and moves the counter and the entry by the quantity |
| Inventory.AddToStorageBoundedKeepsBounded | js/Inventory.js:118-137 | The corrected storage add keeps both containers within their limits |
| Inventory.TransferToStorageBounded | js/Inventory.js:154-170 | The corrected transfer succeeds exactly when the items are held, the name is in the catalogue and storage has room for the whole quantity. It then moves the quantity from the bag entry to the storage entry |
| Inventory.BoundedTransferToStorageSound | js/Inventory.js:154-170 | With the corrected add, a transfer to storage keeps both limits and conserves every item. A success moves both counters by the quantity, and a refused transfer changes nothing |
| Inventory.TransferFromStorageKeepsBounded | js/Inventory.js:172-189 | A transfer from storage keeps both the bag and the storage limit |
| Selection.IndexOf | js/Game.js:365-387 | `indexOf` gives the first position of the name, or -1 exactly when the name is absent |
| Selection.Toggle | js/Game.js:365-387 | Toggling appends an absent name. For a present name it removes exactly its first occurrence: the result is one shorter, holds the same names less that one, and keeps the names before it and after it in order |
| Selection.ToggleFlips | js/Game.js:365-387 | On a duplicate-free selection a toggle flips exactly the toggled name's membership, leaves every other name's membership alone, and keeps the selection duplicate-free |
| Selection.ToggleTwiceAbsent | js/Game.js:365-387 | Toggling an unselected name twice restores the selection exactly |
| Selection.ToggleTwicePresent | js/Game.js:365-387 | Toggling a selected name twice restores the selection up to order, and exactly when the name was the last one selected |
| Trade.TradeValueAppend | js/Game.js:621-625 | The value of two lists together is the sum of their values |
| Trade.TradeValueNonNegative | js/Game.js:621-625 | A list's trade value is never negative |
| Trade.HasIsCountAtLeastOne | js/Inventory.js:106-112 | `hasItem(name)` holds exactly when `getItemCount(name)` is at least 1 |
| Trade.RemoveEachEffect | js/Game.js:406-409 | Removing one of each of distinct held items takes exactly one of each, keeps the invariant and lowers the worth by their total value |
| Trade.AddEachEffect | js/Game.js:411-413 | Adding one of each of catalogue items to a bag with room adds exactly their multiset, keeps the invariant and raises the worth by their total value |
| Trade.ExecuteTrade | js/Game.js:389-432 | The panel trade refuses empty selections and missing player items with no change. A trade that happens clears both selections |
| Trade.ExecuteTradeWithRoom | js/Game.js:389-432 | When the bag has room, a trade hands over exactly one of each selected item in each direction, keeps the invariant and moves the worth by the value difference |
| Trade.TradeLosesItemsAsWritten | js/Game.js:406-425 | As written, a full bag trading one apple for a carrot and a cabbage loses the cabbage, yet the trade completes |
| Trade.ExecuteTradeChecked | js/Game.js:389-432 | The corrected trade also refuses, with no change, when the bag cannot take the NPC's items after giving the player's |
| Trade.ExecuteTradeCheckedDelivers | js/Game.js:389-432 | Every completed corrected trade delivers exactly one of each item both ways, keeps the invariant and moves the worth by the value difference. Otherwise nothing changes |
| Trade.CanTrade | js/Game.js:563-572 | `canTrade` holds exactly when the bag holds at least one of every name in the player list. The NPC items play no part |
| Trade.AddTradeRecord | js/Game.js:601-615 | The new record goes first and the older records follow in order, cut to 50 |
| Trade.ExecuteRecordedTrade | js/Game.js:574-599 | `TradeSystem.executeTrade` succeeds exactly when `canTrade` holds, records the trade first in the history, and changes nothing when refused |
| Trade.RecordedTradeAgreesWithPanel | js/Game.js:389-432 | For non-empty lists, the recorded trade and the panel trade accept the same trades and leave the same inventory |
| Trade.HistoryStaysBounded | js/Game.js:601-615 | No series of trades grows the history past 50 records |
| Npc.GetCurrentDialog | js/NPC.js:477-481 | `getCurrentDialog` returns the current line and moves the index one step round the list |
| Npc.Advance | js/NPC.js:477-481 | One dialog step keeps the index inside the unchanged dialog list |
| Npc.AdvanceIsGetCurrentDialog | js/NPC.js:477-481 | The step without remainder is exactly the step `getCurrentDialog` takes |
| Npc.Talk | js/NPC.js:477-481 | `k` calls show `k` lines and keep the index valid |
| Npc.TalkSplit | js/NPC.js:477-481 | `a + b` calls are `a` calls followed by `b` calls |
| Npc.TalkForward | js/NPC.js:477-481 | Before the end of the list, calls show the lines in order, and the index wraps to 0 exactly at the end |
| Npc.TalkFullCircle | js/NPC.js:477-481 | As many calls as there are lines show each line once from the current one round, and restore the NPC |
| Npc.Interact | js/NPC.js:455-470 | `interact` is refused with no change exactly while the cooldown is positive. Otherwise the NPC starts interacting, the cooldown is 1 second and the current line is shown |
| Npc.EndInteraction | js/NPC.js:501-505 | `endInteraction` clears the interacting flag and nothing else, so an NPC that was not interacting is unchanged |
| Npc.InteractThenEnd | js/NPC.js:455-470 | Talking to an idle NPC and closing the dialog leaves it as before except for the next dialog line and the restarted 1-second cooldown. A refused talk followed by a close changes nothing |
| Npc.Tick | js/NPC.js:391-397 | A positive cooldown runs down by the frame time. A non-positive one stays put, and nothing else changes |
| Npc.CooldownExpires | js/NPC.js:391-397 | Over any run of frames the cooldown never rises above its start and is gone once the frames add up to it |
| Npc.TradeOfferIsFixed | js/NPC.js:517-519 | Whether and what an NPC trades is never changed by showing a line, talking, ending a talk or the cooldown ticking |
| SmartNpc.Create | js/SmartNPC.js:1-81 | A new smart NPC keeps its name (`NPC` for an empty one), position, trade offer and dialogs (a greeting when none are given), and is well formed exactly when the dialog list is non-empty. It starts idle, not interacting, at the first line, with full mood and energy, friendly by default, interaction radius 3 and follow radius 15 by default. `setupAI` scales detection, personal space, move speed, run speed and attention span by personality exactly as its switch does |
| SmartNpc.ChangeState | js/SmartNPC.js:268-312 | A change to the same state does nothing. Otherwise it resets the state timer, and entering idle or avoiding sets the walking or running speed |
| SmartNpc.ReactToPlayer | js/SmartNPC.js:230-266 | Each personality's reaction to a visible player. Friendly follows on a draw below 0.3 and is curious otherwise. Shy avoids when closer than 1.5 personal spaces and is curious otherwise. Curious follows. Playful follows on a draw below 0.4 and otherwise plays. Lazy becomes curious only inside the interaction radius |
| SmartNpc.PlayfulBehavior | js/SmartNPC.js:412-427 | Playing follows on a draw below 0.5. Otherwise the NPC keeps its state and starts circling toward a target at running speed |
| SmartNpc.ReactionOutcomes | js/SmartNPC.js:230-266 | A reaction leads to following, curiosity or avoidance, or leaves the state alone only for lazy, playful or unknown personalities. Only a shy NPC starts avoiding, only a playful one starts circling, and the configured speeds never change |
| SmartNpc.Transition | js/SmartNPC.js:174-224 | The state transitions of `updateAI` never touch mood, energy, speeds or the base NPC |
| SmartNpc.StateAction | js/SmartNPC.js:314-427 | The per-state actions never change the state, mood, energy or speeds |
| SmartNpc.UpdateAi | js/SmartNPC.js:153-228 | An AI frame leaves mood, energy, the base NPC and the configured speeds alone |
| SmartNpc.InteractingExit | js/SmartNPC.js:219-223 | An interacting NPC goes idle exactly when the player leaves close range or 10 seconds have passed |
| SmartNpc.FollowingExit | js/SmartNPC.js:203-209 | A following NPC starts interacting when very close. Otherwise it goes idle exactly past the follow radius or after 15 seconds |
| SmartNpc.AvoidingExit | js/SmartNPC.js:211-217 | An avoiding NPC goes idle exactly when the player is out of detection range. Otherwise it keeps running |
| SmartNpc.EnteringStateSetsSpeed | js/SmartNPC.js:279-312 | Entering idle restores the walking speed, and avoiding always runs at the running speed |
| SmartNpc.CalmNpcGreetsPlayer | js/SmartNPC.js:175-193 | An idle or wandering NPC that sees the player very close starts interacting, whatever its personality |
| SmartNpc.MoodAndEnergy | js/SmartNPC.js:509-525 | Energy drains but never below 0, and mood stays in [0, 1] |
| SmartNpc.Update | js/SmartNPC.js:133-151 | A frame keeps mood and energy in [0, 1] and never raises energy. Without a player the AI does not run |
| SmartNpc.RunStaysCalm | js/SmartNPC.js:133-151 | Over any run of frames mood and energy stay in [0, 1] and energy never rises |
| SmartNpc.Interact | js/SmartNPC.js:556-564 | The override accepts exactly when the cooldown is over. It then switches to interacting, sets mood to min(1, mood + 0.2) and runs the base `interact` on the NPC. A refusal changes nothing |
| SmartNpc.TradeOfferSurvives | js/SmartNPC.js:557-565 | Neither an AI frame nor the interact override changes the trade offer or whether the NPC trades |
| NpcManager.InitialNpcs | js/NPC.js:550-631 | The manager creates four idle NPCs with mood and energy in range |
| NpcManager.InitialNpcsTradeKnownItems | js/NPC.js:550-619 | Every initial NPC can trade, and every item it offers is in the catalogue |
| NpcManager.HandlePlayerInteraction | js/NPC.js:645-658 | The first NPC within reach and off cooldown, and only it, interacts. Every other NPC is unchanged, and there is no hit exactly when none is ready |
| NpcManager.FindByName | js/NPC.js:664-666 | The lookup finds the first NPC with the name, or none exactly when no NPC has it |
| NpcManager.GetNpcByName | js/NPC.js:664-666 | `getNPCByName` returns the first NPC with the name, or nothing exactly when none has it |
| NpcManager.FindsEachByName | js/NPC.js:664-666 | With distinct names every NPC is found at its own position |
| NpcManager.InitialNamesDistinct | js/NPC.js:550-631 | The four initial names are distinct, so each is found by name |
| NpcManager.UpdateAll | js/NPC.js:639-643 | A manager frame keeps every NPC's name, keeps a calm NPC's mood and energy in [0, 1], and never raises energy |
| Camera.Initial | js/SmartCamera.js:1-71 | The constructed camera starts in first-person mode within every bound |
| Camera.MouseDown | js/SmartCamera.js:100-108 | A left press starts dragging and stops auto-rotation. Other buttons do nothing |
| Camera.Drag | js/SmartCamera.js:110-127 | A drag turns the yaw freely and clamps the pitch to [π/6, 2π/3] |
| Camera.MouseMove | js/SmartCamera.js:110-127 | Moves only act while dragging with mouse control enabled, and keep the pitch clamped |
| Camera.MouseUp | js/SmartCamera.js:129-133 | Releasing the left button stops dragging without moving the camera |
| Camera.TouchStart | js/SmartCamera.js:155-161 | A one-finger touch starts dragging. Other touches do nothing |
| Camera.TouchMove | js/SmartCamera.js:163-179 | A one-finger drag keeps the pitch clamped, with no enabled check. Other moves do nothing |
| Camera.TouchEnd | js/SmartCamera.js:181-183 | Lifting the finger stops dragging |
| Camera.ClampZoom | js/SmartCamera.js:135-139 | Zoom is kept in [0.5, 3] and an in-range zoom is unchanged |
| Camera.Wheel | js/SmartCamera.js:135-139 | A wheel step keeps the target zoom in [0.5, 3], and moves an in-range zoom 0.1 up for a positive delta and 0.1 down otherwise, stopping at the bounds |
| Camera.Zoom | js/SmartCamera.js:386-388 | `zoom(factor)` sets the target zoom to the clamped factor |
| Camera.DistanceOfZoom | js/SmartCamera.js:316-320 | A zoom in [0.5, 3] gives a camera distance in [10/3, 20] |
| Camera.UpdateZoom | js/SmartCamera.js:316-320 | The target distance times the zoom is 10, so it lies in [10/3, 20]. The current distance closes a tenth of its gap to the target each frame |
| Camera.ToggleMode | js/SmartCamera.js:401-407 | `toggleCameraMode` always changes the mode and never selects fixed |
| Camera.ToggleCycles | js/SmartCamera.js:401-407 | Toggling goes follow → cinematic → first-person → follow, so three toggles visit all three modes and come back |
| Camera.Nearest | js/SmartCamera.js:244-276 | The focus is on the nearest NPC within 8, the first of equally near ones, or none exactly when none is within 8 |
| Camera.UpdateNpcFocus | js/SmartCamera.js:244-276 | A new focus restarts the blend at 0.02, losing it resets the blend to 0, and a kept focus blends up to 1 |
| Camera.UpdateAutoRotation | js/SmartCamera.js:282-293 | Dragging resets the idle timer. After 5 idle seconds the camera turns by 0.5 rad/s, and the pitch never changes |
| Camera.UpdateShake | js/SmartCamera.js:295-314 | A shake runs for its duration and then resets. No shake means no change |
| Camera.Shake | js/SmartCamera.js:380-384 | `shake` restarts the timer with the given duration |
| Camera.ResetCameraAsWritten | js/SmartCamera.js:409-415 | As written, reset throws after setting the angles and zoom, so the idle timer is never cleared |
| Camera.ResetAsWrittenLeavesClamp | js/SmartCamera.js:409-415 | As written, reset leaves the pitch at 0, outside the drag clamp |
| Camera.ResetCamera | js/SmartCamera.js:409-415 | The corrected reset returns with level pitch π/2, yaw 0, zoom 1 and a cleared timer, within every bound |
| Camera.KeyDown | js/SmartCamera.js:141-153 | As written, C toggles the mode and V toggles auto-rotation within every bound; R throws out of the reset with the pitch outside its clamp and the idle timer kept; other keys do nothing |
| Camera.KeyDownCorrected | js/SmartCamera.js:141-153 | With the corrected reset, every key keeps every bound, R clears the idle timer, and every other key acts as written |
| Camera.UpdateMode | js/SmartCamera.js:227-240 | The per-mode update keeps every bound and touches the NPC focus only in follow mode |
| Camera.Update | js/SmartCamera.js:185-217 | A frame keeps every camera bound and the mode |
| Camera.Apply | js/SmartCamera.js:100-217 | Any input event or frame keeps the zoom at least 0.5. As written, every event but R keeps every bound and R breaks them; with the corrected reset every event keeps them |
| Camera.CorrectedRunStaysHealthy | js/SmartCamera.js:100-217 | With the corrected reset, any sequence of inputs and frames keeps every camera bound |
| Camera.RunWithoutResetStaysHealthy | js/SmartCamera.js:100-217 | As written, a sequence of inputs and frames without R keeps every camera bound and agrees with the corrected run |
| Camera.RunSnoc | js/SmartCamera.js:100-217 | A run followed by one more event is that event applied to the run's result |
| Camera.ResetEndsRunUnhealthy | js/SmartCamera.js:141-153 | As written, any run that ends with R leaves the camera outside its bounds |
| Environment.GetCollectibleAt | js/Environment.js:623-634 | The first collectible within the radius, or none exactly when none is within it |
| Environment.RemoveCollectible | js/Environment.js:636-644 | Removal succeeds exactly for a valid index and removes that one element, keeping the order. Otherwise nothing changes |
| Environment.RemoveCollectibleIsExact | js/Environment.js:636-644 | Removal takes out exactly the indexed collectible |
| Environment.GetBuildingAt | js/Environment.js:646-651 | The first building within the radius, or none exactly when none is within it |
| Environment.BuildingsApart | js/Environment.js:178-196 | The house, shop and storage stand so far apart that no point is within 7.5 of two of them. So at the interaction distance of 3 that the player passes (js/Player.js:457-467), the building found first is the only one in reach |
| Environment.FirstOffCentre | js/Environment.js:93-96 | The first draw that lands outside the central square, or none exactly when none does |
| Environment.Accepted | js/Environment.js:93-96 | Every accepted position lies outside the central square at the given height |
| Environment.FirstOffCentreTakesAccepted | js/Environment.js:93-96 | The accepted positions start with the first off-centre draw |
| Environment.Place | js/Environment.js:85-109 | The rejection loop places the first `count` accepted positions, or all of them when there are fewer |
| Environment.CreateTrees | js/Environment.js:85-109 | The trees are the first accepted candidates in draw order, none within 3 of the centre on both axes. There are 30 of them unless the draws run out first |
| Environment.FruitTypeAt | js/Environment.js:157-158 | A draw in [k/6, (k+1)/6) picks the k-th of the six fruit types |
| Environment.MushroomTypeAt | js/Environment.js:505-543 | A third of draws give a red mushroom and the rest a brown one |
| Environment.CreateGroundFruits | js/Environment.js:345-368 | The ground fruits sit at the first accepted candidates at height 0.2, outside the centre. Each has the kind its own draw picks. There are 20 of them unless the draws run out first |
| Environment.CreateMushrooms | js/Environment.js:475-491 | The mushrooms sit at the first accepted candidates on the ground, outside the centre. Each is red or brown as its own draw picks. There are 12 of them unless the draws run out first |
| World.ScatteredItemsCatalogued | js/Game.js:186-198 | Every generated fruit and mushroom, named by its fruit or mushroom type, is a catalogue item |
| World.PickUp | js/Game.js:179-203 | Picking up takes the first reachable collectible into the bag and removes it from the world. When the bag refuses, nothing changes |
| World.PickUpKeepsValid | js/Game.js:179-203 | Picking up keeps the inventory invariant |
| World.PickUpFailsOnlyWhenFull | js/Game.js:179-203 | A reachable catalogue collectible is refused exactly when the bag is full |
| World.CheckCollectibles | js/Game.js:179-203 | Each frame, the player picks up the first collectible within 2 exactly as PickUp does. At most one collectible changes, and the inventory invariant is kept |
| World.HandlePlayerInteraction | js/Game.js:205-260 | The E key talks to the first ready NPC if there is one, running its interact and leaving the other NPCs unchanged. Otherwise it enters a building in reach, or else gathers a collectible in reach, or else does nothing; no other branch touches the NPCs or the current NPC |
| World.CloseDialog | js/Game.js:284-291 | Closing the dialog ends the current NPC's interaction and forgets it. That NPC keeps its dialog line, cooldown and AI state, and nothing else in the world changes |
| World.Trade | js/Game.js:389-442 | A trade in the game goes through exactly when both selections are non-empty and every selected player item is held. It then updates the inventory as the trade panel does, closes the dialog and frees the NPC. A refused trade changes nothing |
| World.TradeDelivers | js/Game.js:389-442 | With room in the bag, a completed trade of distinct held items gives one of each selected item and receives one of each NPC item, keeps the inventory invariant, and leaves the NPC no longer interacting |

## Left out

- Rendering: meshes, materials, lights, the sky, clouds, flowers, rocks, animations and every DOM panel, message and emoticon.
- `localStorage` saving and loading of the inventory and game data: browser I/O.
- `setTimeout` callbacks (dialog auto-close, `focusOnNPC`, emoticon removal): timers outside the frame loop.
- Continuous motion: `moveToTarget`'s step towards the target, the follow and avoid target vectors, `updateLookAt`, the wander of `NPC.updateBehavior`, `updatePlayerVelocity` and `applyCamera`. The model keeps only the flags and speeds these set.
- SmartNpc.CanSee: the facing test of `canSeePlayer` (a dot product against the NPC's forward vector) is an input `facing` rather than computed from a rotation.
- `selectNewDestination` and `generateInterestPoints`: the chosen destination is reduced to "has a target".
- The NPCs' `memory` fields: written but never read by any decision.
- `setFollowDistance` and `setHeight`: they write a `targetOffset` field the camera never defines.
- `enableMouseControl`: the `EnableMouse(on)` event of `Camera.Apply` models it. Only the default argument `enabled = true` is dropped, because the event always carries its flag.
- Player movement and physics (`Player.js`), the engine loop (`GameEngine.js`) and the HTTP server: outside the game rules.
- Environment.Place: the placement loops run on a finite list of draws, so a run that exhausts them places fewer items where the source would keep drawing.
- Npc.GetCurrentDialog: requires a non-empty dialog list, because an empty `dialogs: []` gives `undefined` text and a `NaN` index in the source.
- Inventory.AddItemKeepsValid: stated for quantities of at least 1, which all callers pass (1, or `min(count, 10)` from the storage panel). Zero or negative quantities are not considered.
- Camera.UpdateZoom: requires the target zoom to be at least 0.5, which every zoom change guarantees through the clamp.
- World.Trade: the NPC's thank-you speech bubble, its happy animation and the trade messages are interface output and are not modelled; the trade selections are parameters rather than fields of the world.
- The bobbing of ground fruit in `Environment.update`: every frame it moves a ground fruit's height to `0.2 + 0.1·sin(3t)` at clock time `t`. Because `getCollectibleAt` measures distance in three dimensions, in the source whether a fruit is within reach can change from frame to frame. The model keeps each fruit at the height of 0.2 it was created with, since it has neither a clock nor a sine.
- Floating point: arithmetic is exact on reals and π is the decimal 3.141592653589793.

## Findings

| source | as written | input that shows it | evidently intended | confidence | as-written member | corrected member |
|---|---|---|---|---|---|---|
| js/Inventory.js:123-126 | `addToStorage` refuses only when the storage counter is already at or above 200, whatever the quantity | 195 items stored, then a transfer of 10 apples from the bag, leaves 205 stored | refuse when the counter plus the quantity would pass 200, as `transferFromStorage` does for the bag | not executed | Inventory.StorageOverflowsAsWritten | Inventory.BoundedTransferToStorageSound |
| js/Game.js:406-425 | `executeTrade` ignores the result of each `addItem`, then clears the selections and reports success | bag of 50 apples, giving one apple for a carrot and a cabbage, loses the cabbage | refuse the trade unless the bag can take every item the NPC gives | not executed | Trade.TradeLosesItemsAsWritten | Trade.ExecuteTradeCheckedDelivers |
| js/SmartCamera.js:409-415 | `resetCamera` sets the pitch to 0, outside the [π/6, 2π/3] drag clamp, and then throws on the undefined `currentOffset`, so the idle timer is never reset | any camera, key R | reset to a level pitch inside the clamp and clear the idle timer | not executed | Camera.ResetEndsRunUnhealthy | Camera.CorrectedRunStaysHealthy |

=== FILE: camera.dfy ===
/** The player camera (`SmartCamera` in js/SmartCamera.js): drag and touch
    rotation with its vertical clamp, the zoom clamp and the camera distance it
    drives, the three-mode cycle, the focus on the nearest NPC, the shake timer,
    idle auto-rotation and the reset key.

    Only the camera's own bookkeeping is modelled. Placing the camera in the
    scene (spherical coordinates, `lookAt`, position smoothing) and the player
    velocity estimate are floating-point rendering and are left out; the NPCs
    are given as their positions, and the NPC in focus is named by its index in
    that list. */
module Camera {
  import opened Geometry
  import opened Maybe

  const Pi: real := 3.141592653589793
  const MinAngleX: real := Pi / 2.0 - Pi / 3.0
  const MaxAngleX: real := Pi / 2.0 + Pi / 6.0
  const Sensitivity: real := 0.005
  const MinZoom: real := 0.5
  const MaxZoom: real := 3.0
  const CameraDistance: real := 10.0
  const ZoomSpeed: real := 0.1
  const FocusRange: real := 8.0
  const FocusSpeed: real := 0.02
  const AutoRotateSpeed: real := 0.5
  const IdleRotationDelay: real := 5.0

  /** `'fixed'` is a mode the constructor comments mention but nothing selects. */
  datatype Mode = Follow | Cinematic | FirstPerson | Fixed

  datatype Cam = Cam(
    mode: Mode,
    angleX: real,
    angleY: real,
    enabled: bool,
    isDragging: bool,
    lastX: real,
    lastY: real,
    targetZoom: real,
    targetCameraDistance: real,
    currentCameraDistance: real,
    autoRotate: bool,
    autoRotateTimer: real,
    shakeIntensity: real,
    shakeDuration: real,
    shakeTimer: real,
    shakeOffset: Vec3,
    npcFocus: Option<nat>,
    focusTransition: real,
    cinematicTarget: Option<nat>,
    cinematicTimer: real)

  /** The closest camera distance a zoom allows (10 / 3) and the farthest (10 / 0.5). */
  const NearDistance: real := CameraDistance / MaxZoom
  const FarDistance: real := CameraDistance / MinZoom

  /** What the camera's controls keep true: the vertical angle and the zoom
      inside their clamps, the camera distance between the distances those
      zooms give, the focus transition in [0, 1] and non-negative timers. */
  ghost predicate Healthy(c: Cam) {
    && MinAngleX <= c.angleX <= MaxAngleX
    && MinZoom <= c.targetZoom <= MaxZoom
    && NearDistance <= c.currentCameraDistance <= FarDistance
    && 0.0 <= c.focusTransition <= 1.0
    && 0.0 <= c.autoRotateTimer && 0.0 <= c.shakeTimer
  }

  /** The constructor's state: first-person mode, level view, zoom 1. */
  function Initial(): (c: Cam)
    ensures Healthy(c) && c.mode == FirstPerson && c.npcFocus.None?
  {
    Cam(FirstPerson, Pi / 2.0, 0.0, true, false, 0.0, 0.0, 1.0, 10.0, 10.0,
        false, 0.0, 0.0, 0.0, 0.0, Vec3(0.0, 0.0, 0.0), None, 0.0, None, 0.0)
  }

  // ---------------------------------------------------------------------------
  // Mouse and touch input

  function MouseDown(c: Cam, button: int, x: real, y: real): (r: Cam)
    ensures button == 0 ==> r.isDragging && r.autoRotateTimer == 0.0 && !r.autoRotate
    ensures button != 0 ==> r == c
    ensures Healthy(c) ==> Healthy(r)
  {
    if button == 0 then c.(isDragging := true, lastX := x, lastY := y, autoRotate := false, autoRotateTimer := 0.0)
    else c
  }

  /** The rotation shared by mouse and touch drags. */
  function Drag(c: Cam, x: real, y: real): (r: Cam)
    ensures MinAngleX <= r.angleX <= MaxAngleX
    ensures MinAngleX <= c.angleX - (y - c.lastY) * Sensitivity <= MaxAngleX ==>
              r.angleX == c.angleX - (y - c.lastY) * Sensitivity
    ensures r.angleY == c.angleY - (x - c.lastX) * Sensitivity
    ensures r.lastX == x && r.lastY == y
    ensures Healthy(c) ==> Healthy(r)
  {
    c.(angleY := c.angleY - (x - c.lastX) * Sensitivity,
       angleX := Clamp(MinAngleX, MaxAngleX, c.angleX - (y - c.lastY) * Sensitivity),
       lastX := x, lastY := y)
  }

  /** `onMouseMove`: rotates only while dragging with mouse control enabled. */
  function MouseMove(c: Cam, x: real, y: real): (r: Cam)
    ensures c.isDragging && c.enabled ==> MinAngleX <= r.angleX <= MaxAngleX
    ensures !(c.isDragging && c.enabled) ==> r == c
    ensures Healthy(c) ==> Healthy(r)
  {
    if c.isDragging && c.enabled then Drag(c, x, y) else c
  }

  function MouseUp(c: Cam, button: int): (r: Cam)
    ensures button == 0 ==> !r.isDragging
    ensures r.angleX == c.angleX && r.angleY == c.angleY
  {
    if button == 0 then c.(isDragging := false) else c
  }

  /** `onTouchStart`: one finger starts a drag (unlike the mouse, it leaves
      auto-rotation alone). */
  function TouchStart(c: Cam, touches: nat, x: real, y: real): (r: Cam)
    ensures touches == 1 ==> r.isDragging && r.autoRotate == c.autoRotate
    ensures touches != 1 ==> r == c
  {
    if touches == 1 then c.(isDragging := true, lastX := x, lastY := y) else c
  }

  /** `onTouchMove`: rotates while dragging with one finger; it does not
      consult whether mouse control is enabled. */
  function TouchMove(c: Cam, touches: nat, x: real, y: real): (r: Cam)
    ensures c.isDragging && touches == 1 ==> MinAngleX <= r.angleX <= MaxAngleX
    ensures !(c.isDragging && touches == 1) ==> r == c
    ensures Healthy(c) ==> Healthy(r)
  {
    if c.isDragging && touches == 1 then Drag(c, x, y) else c
  }

  function TouchEnd(c: Cam): (r: Cam)
    ensures !r.isDragging && r.angleX == c.angleX
  {
    c.(isDragging := false)
  }

  // ---------------------------------------------------------------------------
  // Zoom

  function ClampZoom(z: real): (r: real)
    ensures MinZoom <= r <= MaxZoom
    ensures MinZoom <= z <= MaxZoom ==> r == z
  {
    Clamp(MinZoom, MaxZoom, z)
  }

  /** `onWheel`: a step of 0.1 out for a positive wheel delta, in otherwise. */
  function Wheel(c: Cam, deltaY: real): (r: Cam)
    ensures MinZoom <= r.targetZoom <= MaxZoom
    ensures MinZoom <= c.targetZoom <= MaxZoom && deltaY > 0.0 ==>
              r.targetZoom == Min(MaxZoom, c.targetZoom + 0.1)
    ensures MinZoom <= c.targetZoom <= MaxZoom && deltaY <= 0.0 ==>
              r.targetZoom == Max(MinZoom, c.targetZoom - 0.1)
    ensures Healthy(c) ==> Healthy(r)
  {
    c.(targetZoom := ClampZoom(c.targetZoom + (if deltaY > 0.0 then 0.1 else -0.1)))
  }

  function Zoom(c: Cam, factor: real): (r: Cam)
    ensures MinZoom <= r.targetZoom <= MaxZoom
    ensures MinZoom <= factor <= MaxZoom ==> r.targetZoom == factor
    ensures Healthy(c) ==> Healthy(r)
  {
    c.(targetZoom := ClampZoom(factor))
  }

  /** `THREE.MathUtils.lerp`. */
  function Lerp(a: real, b: real, t: real): real {
    (1.0 - t) * a + t * b
  }

  /** A zoom inside its clamp gives a camera distance between 10/3 and 20. */
  lemma DistanceOfZoom(z: real)
    requires MinZoom <= z
    ensures CameraDistance / z <= FarDistance
    ensures z <= MaxZoom ==> NearDistance <= CameraDistance / z
  {
    var t := CameraDistance / z;
    assert t * z == 10.0 && t > 0.0;
    assert t * 0.5 <= t * z;
    if z <= MaxZoom {
      assert t * 3.0 >= t * z;
    }
  }

  /** `updateZoom`: the target distance follows the target zoom, and the
      current distance moves a tenth of the way towards it. */
  function UpdateZoom(c: Cam): (r: Cam)
    requires MinZoom <= c.targetZoom
    ensures c.targetZoom <= MaxZoom ==> NearDistance <= r.targetCameraDistance <= FarDistance
    ensures r.targetCameraDistance * c.targetZoom == CameraDistance
    ensures r.currentCameraDistance - r.targetCameraDistance
            == 0.9 * (c.currentCameraDistance - r.targetCameraDistance)
    ensures Healthy(c) ==> Healthy(r)
  {
    var target := CameraDistance / c.targetZoom;
    DistanceOfZoom(c.targetZoom);
    c.(targetCameraDistance := target,
       currentCameraDistance := Lerp(c.currentCameraDistance, target, ZoomSpeed))
  }

  // ---------------------------------------------------------------------------
  // Modes

  /** `toggleCameraMode`: follow, cinematic, first person, and round again; a
      mode outside that list goes to follow. */
  function ToggleMode(m: Mode): (r: Mode)
    ensures r != Fixed && r != m
    ensures m == Fixed ==> r == Follow
  {
    match m
    case Follow => Cinematic
    case Cinematic => FirstPerson
    case FirstPerson => Follow
    case Fixed => Follow
  }

  /** The cycle runs follow, cinematic, first person in that order; three
      toggles bring every listed mode back, and the cycle visits all three. */
  lemma ToggleCycles(m: Mode)
    requires m != Fixed
    ensures ToggleMode(Follow) == Cinematic && ToggleMode(Cinematic) == FirstPerson && ToggleMode(FirstPerson) == Follow
    ensures ToggleMode(ToggleMode(ToggleMode(m))) == m
    ensures {m, ToggleMode(m), ToggleMode(ToggleMode(m))} == {Follow, Cinematic, FirstPerson}
  {
  }

  // ---------------------------------------------------------------------------
  // NPC focus

  predicate InFocusRange(npc: Vec3, player: Vec3) {
    CloserThan(npc, player, FocusRange)
  }

  /** The search of `updateNPCFocus`: over the NPCs in order, keep the one in
      range that is strictly closer than the best so far. */
  function Nearest(npcs: seq<Vec3>, player: Vec3): (r: Option<nat>)
    ensures r.None? <==> forall j :: 0 <= j < |npcs| ==> !InFocusRange(npcs[j], player)
    ensures r.Some? ==> r.value < |npcs| && InFocusRange(npcs[r.value], player)
    ensures r.Some? ==> forall j :: 0 <= j < |npcs| && InFocusRange(npcs[j], player) ==>
                          DistSq(npcs[r.value], player) <= DistSq(npcs[j], player)
    ensures r.Some? ==> forall j :: 0 <= j < r.value && InFocusRange(npcs[j], player) ==>
                          DistSq(npcs[r.value], player) < DistSq(npcs[j], player)
    decreases |npcs|
  {
    if |npcs| == 0 then None
    else
      var k := |npcs| - 1;
      var prefix := npcs[..k];
      assert forall j :: 0 <= j < k ==> prefix[j] == npcs[j];
      var best := Nearest(prefix, player);
      if InFocusRange(npcs[k], player) && (best.None? || DistSq(npcs[k], player) < DistSq(npcs[best.value], player))
      then Some(k)
      else best
  }

  /** `updateNPCFocus`: switch to the nearest NPC in range (restarting the
      transition) or drop a focus that has gone out of range, then move the
      transition 0.02 towards 1 while focused, or back towards 0 otherwise. */
  function UpdateNpcFocus(c: Cam, npcs: seq<Vec3>, player: Vec3): (r: Cam)
    ensures r.npcFocus == Nearest(npcs, player)
    ensures 0.0 <= c.focusTransition <= 1.0 ==> 0.0 <= r.focusTransition <= 1.0
    ensures r.npcFocus != c.npcFocus && r.npcFocus.Some? ==> r.focusTransition == FocusSpeed
    ensures r.npcFocus != c.npcFocus && r.npcFocus.None? ==> r.focusTransition == 0.0
    ensures r.npcFocus == c.npcFocus && r.npcFocus.Some? ==> r.focusTransition == Min(1.0, c.focusTransition + FocusSpeed)
    ensures Healthy(c) ==> Healthy(r)
  {
    var closest := Nearest(npcs, player);
    var switched :=
      if closest.Some? && closest != c.npcFocus then c.(npcFocus := closest, focusTransition := 0.0)
      else if closest.None? && c.npcFocus.Some? then c.(npcFocus := None, focusTransition := 0.0)
      else c;
    if switched.npcFocus.Some? || switched.focusTransition > 0.0 then
      var up := Min(1.0, switched.focusTransition + FocusSpeed);
      switched.(focusTransition := if switched.npcFocus.None? then Max(0.0, up - FocusSpeed * 2.0) else up)
    else switched
  }

  // ---------------------------------------------------------------------------
  // Auto-rotation and shake

  /** `updateAutoRotation`: dragging holds the idle timer at 0; otherwise the
      timer runs and, once past the delay with auto-rotation on, the
      horizontal angle turns at 0.5 per second. */
  function UpdateAutoRotation(c: Cam, dt: real): (r: Cam)
    requires dt >= 0.0
    ensures c.isDragging ==> r.autoRotateTimer == 0.0 && r.angleY == c.angleY
    ensures !c.isDragging ==> r.autoRotateTimer == c.autoRotateTimer + dt
    ensures r.angleY != c.angleY ==>
              !c.isDragging && c.autoRotate && c.autoRotateTimer + dt > IdleRotationDelay
    ensures !c.isDragging && c.autoRotate && c.autoRotateTimer + dt > IdleRotationDelay ==>
              r.angleY == c.angleY + AutoRotateSpeed * dt
    ensures r.angleX == c.angleX
    ensures Healthy(c) ==> Healthy(r)
  {
    if c.isDragging then c.(autoRotateTimer := 0.0)
    else
      var timed := c.(autoRotateTimer := c.autoRotateTimer + dt);
      if timed.autoRotateTimer > IdleRotationDelay && c.autoRotate
      then timed.(angleY := c.angleY + AutoRotateSpeed * dt)
      else timed
  }

  /** Three draws in [0, 1) for the shake offset. */
  datatype Jitter = Jitter(x: real, y: real, z: real)

  /** `updateCameraShake`: while a shake lasts the timer runs and the offset
      fades with progress; once progress reaches 1, duration, timer and offset
      all return to zero. */
  function UpdateShake(c: Cam, dt: real, j: Jitter): (r: Cam)
    requires dt >= 0.0
    ensures c.shakeDuration <= 0.0 ==> r == c
    ensures c.shakeDuration > 0.0 && c.shakeTimer + dt >= c.shakeDuration ==>
              r.shakeDuration == 0.0 && r.shakeTimer == 0.0 && r.shakeOffset == Vec3(0.0, 0.0, 0.0)
    ensures c.shakeDuration > 0.0 && c.shakeTimer + dt < c.shakeDuration ==>
              r.shakeDuration == c.shakeDuration && r.shakeTimer == c.shakeTimer + dt
    ensures Healthy(c) ==> Healthy(r)
  {
    if c.shakeDuration > 0.0 then
      var timer := c.shakeTimer + dt;
      var progress := timer / c.shakeDuration;
      var intensity := c.shakeIntensity * (1.0 - progress);
      if progress >= 1.0 then
        c.(shakeDuration := 0.0, shakeTimer := 0.0, shakeOffset := Vec3(0.0, 0.0, 0.0))
      else
        c.(shakeTimer := timer,
           shakeOffset := Vec3((j.x - 0.5) * intensity, (j.y - 0.5) * intensity, (j.z - 0.5) * intensity))
    else c
  }

  /** `shake`: start a shake of the given strength and length. */
  function Shake(c: Cam, intensity: real, duration: real): (r: Cam)
    ensures r.shakeDuration == duration && r.shakeTimer == 0.0
    ensures Healthy(c) ==> Healthy(r)
  {
    c.(shakeIntensity := intensity, shakeDuration := duration, shakeTimer := 0.0)
  }

  // ---------------------------------------------------------------------------
  // Reset

  /** How a key handler ends: it returns, or it throws after some of its
      assignments have taken effect. */
  datatype Outcome = Returned(cam: Cam) | Threw(cam: Cam)

  /** `resetCamera` as written: it sets both angles to 0 and the zoom to 1, then
      copies into an offset the camera never defines, which throws before the
      idle timer is reset. */
  function ResetCameraAsWritten(c: Cam): (r: Outcome)
    ensures r.Threw? && r.cam.targetZoom == 1.0 && r.cam.angleY == 0.0
    ensures r.cam.autoRotateTimer == c.autoRotateTimer
  {
    Threw(c.(angleY := 0.0, angleX := 0.0, targetZoom := 1.0))
  }

  /** The as-written reset leaves the vertical angle below the range every drag
      keeps it in, and throws. */
  lemma ResetAsWrittenLeavesClamp(c: Cam)
    ensures ResetCameraAsWritten(c).cam.angleX < MinAngleX
    ensures !Healthy(ResetCameraAsWritten(c).cam)
  {
  }

  /** The reset the constructor's defaults call for: looking straight ahead at
      the level view, zoom 1, and the idle timer cleared. */
  function ResetCamera(c: Cam): (r: Outcome)
    ensures r.Returned? && r.cam.angleX == Pi / 2.0 && r.cam.angleY == 0.0 && r.cam.targetZoom == 1.0
    ensures r.cam.autoRotateTimer == 0.0
    ensures Healthy(c) ==> Healthy(r.cam)
  {
    Returned(c.(angleY := 0.0, angleX := Pi / 2.0, targetZoom := 1.0, autoRotateTimer := 0.0))
  }

  // ---------------------------------------------------------------------------
  // Keys, frames and runs of events

  /** `onKeyDown` as written: C cycles the mode, V toggles auto-rotation, and
      R calls `resetCamera`, which throws part-way with the vertical angle
      outside its clamp. */
  function KeyDown(c: Cam, code: string): (r: Outcome)
    ensures code == "KeyC" ==> r == Returned(c.(mode := ToggleMode(c.mode)))
    ensures code == "KeyV" ==> r == Returned(c.(autoRotate := !c.autoRotate))
    ensures code == "KeyR" ==> r.Threw? && !Healthy(r.cam) && r.cam.autoRotateTimer == c.autoRotateTimer
    ensures code !in {"KeyC", "KeyV", "KeyR"} ==> r == Returned(c)
    ensures code != "KeyR" && Healthy(c) ==> Healthy(r.cam)
    ensures MinZoom <= c.targetZoom ==> MinZoom <= r.cam.targetZoom
  {
    if code == "KeyC" then Returned(c.(mode := ToggleMode(c.mode)))
    else if code == "KeyV" then Returned(c.(autoRotate := !c.autoRotate))
    else if code == "KeyR" then ResetCameraAsWritten(c)
    else Returned(c)
  }

  /** `onKeyDown` with the corrected reset: every key keeps the camera within
      its bounds, and only R behaves differently from the code as written. */
  function KeyDownCorrected(c: Cam, code: string): (r: Outcome)
    ensures code != "KeyR" ==> r == KeyDown(c, code)
    ensures code == "KeyR" ==> r.Returned? && r.cam.autoRotateTimer == 0.0
    ensures Healthy(c) ==> Healthy(r.cam)
    ensures MinZoom <= c.targetZoom ==> MinZoom <= r.cam.targetZoom
  {
    if code == "KeyR" then ResetCamera(c) else KeyDown(c, code)
  }

  /** The mode switch of `update`: follow mode tracks the nearest NPC, and
      cinematic mode runs its timer while it has a target. */
  function UpdateMode(c: Cam, dt: real, npcs: seq<Vec3>, player: Vec3): (r: Cam)
    ensures Healthy(c) ==> Healthy(r)
    ensures r.mode == c.mode && r.targetZoom == c.targetZoom && r.angleX == c.angleX
    ensures c.mode != Follow ==> r.npcFocus == c.npcFocus && r.focusTransition == c.focusTransition
  {
    match c.mode
    case Follow => UpdateNpcFocus(c, npcs, player)
    case Cinematic => if c.cinematicTarget.Some? then c.(cinematicTimer := c.cinematicTimer + dt) else c
    case _ => c
  }

  /** `update`: the mode's own work (NPC focus in follow mode, the cinematic
      timer), then auto-rotation, shake and zoom. */
  function Update(c: Cam, dt: real, npcs: seq<Vec3>, player: Vec3, j: Jitter): (r: Cam)
    requires dt >= 0.0 && MinZoom <= c.targetZoom
    ensures Healthy(c) ==> Healthy(r)
    ensures r.mode == c.mode
  {
    var moded := UpdateMode(c, dt, npcs, player);
    UpdateZoom(UpdateShake(UpdateAutoRotation(moded, dt), dt, j))
  }

  datatype Event =
    | Down(button: int, x: real, y: real)
    | Move(x: real, y: real)
    | Up(button: int)
    | WheelTurn(deltaY: real)
    | Key(code: string)
    | TouchBegin(touches: nat, x: real, y: real)
    | TouchDrag(touches: nat, x: real, y: real)
    | TouchStop
    | ZoomTo(factor: real)
    | EnableMouse(on: bool)
    | Frame(dt: real, npcs: seq<Vec3>, player: Vec3, jitter: Jitter)

  /** The R key. */
  predicate IsReset(e: Event) {
    e.Key? && e.code == "KeyR"
  }

  /** One input event or frame. `corrected` selects the corrected reset for
      the R key; otherwise the handlers are the code as written. */
  function Apply(c: Cam, e: Event, corrected: bool): (r: Cam)
    requires MinZoom <= c.targetZoom
    requires e.Frame? ==> e.dt >= 0.0
    ensures MinZoom <= r.targetZoom
    ensures Healthy(c) && (corrected || !IsReset(e)) ==> Healthy(r)
    ensures !corrected && IsReset(e) ==> !Healthy(r)
  {
    match e
    case Down(b, x, y) => MouseDown(c, b, x, y)
    case Move(x, y) => MouseMove(c, x, y)
    case Up(b) => MouseUp(c, b)
    case WheelTurn(d) => Wheel(c, d)
    case Key(code) => if corrected then KeyDownCorrected(c, code).cam else KeyDown(c, code).cam
    case TouchBegin(t, x, y) => TouchStart(c, t, x, y)
    case TouchDrag(t, x, y) => TouchMove(c, t, x, y)
    case TouchStop => TouchEnd(c)
    case ZoomTo(f) => Zoom(c, f)
    case EnableMouse(on) => c.(enabled := on)
    case Frame(dt, npcs, player, j) => Update(c, dt, npcs, player, j)
  }

  ghost predicate TimeMovesForward(es: seq<Event>) {
    forall i :: 0 <= i < |es| && es[i].Frame? ==> es[i].dt >= 0.0
  }

  function Run(c: Cam, es: seq<Event>, corrected: bool): Cam
    requires MinZoom <= c.targetZoom && TimeMovesForward(es)
    decreases |es|
  {
    if |es| == 0 then c else Run(Apply(c, es[0], corrected), es[1..], corrected)
  }

  /** With the corrected reset, whatever the player does, the vertical angle
      and the zoom stay inside their clamps, the camera distance between 10/3
      and 20, and the focus transition in [0, 1]. */
  lemma {:induction false} CorrectedRunStaysHealthy(c: Cam, es: seq<Event>)
    requires Healthy(c) && TimeMovesForward(es)
    ensures Healthy(Run(c, es, true))
    decreases |es|
  {
    if |es| > 0 {
      CorrectedRunStaysHealthy(Apply(c, es[0], true), es[1..]);
    }
  }

  /** As written, a run in which R is never pressed keeps every bound, and is
      the same run as with the corrected reset. */
  lemma {:induction false} RunWithoutResetStaysHealthy(c: Cam, es: seq<Event>)
    requires Healthy(c) && TimeMovesForward(es)
    requires forall i :: 0 <= i < |es| ==> !IsReset(es[i])
    ensures Run(c, es, false) == Run(c, es, true)
    ensures Healthy(Run(c, es, false))
    decreases |es|
  {
    if |es| > 0 {
      var e := es[0];
      assert Apply(c, e, false) == Apply(c, e, true);
      RunWithoutResetStaysHealthy(Apply(c, e, false), es[1..]);
    }
  }

  /** Running events one more event on is applying that event after the run. */
  lemma {:induction false} RunSnoc(c: Cam, es: seq<Event>, e: Event, corrected: bool)
    requires MinZoom <= c.targetZoom && TimeMovesForward(es)
    requires e.Frame? ==> e.dt >= 0.0
    ensures TimeMovesForward(es + [e])
    ensures MinZoom <= Run(c, es, corrected).targetZoom
    ensures Run(c, es + [e], corrected) == Apply(Run(c, es, corrected), e, corrected)
    decreases |es|
  {
    if |es| > 0 {
      var c1 := Apply(c, es[0], corrected);
      RunSnoc(c1, es[1..], e, corrected);
      assert (es + [e])[0] == es[0];
      assert (es + [e])[1..] == es[1..] + [e];
    } else {
      assert es + [e] == [e];
    }
  }

  /** As written, whatever came before, a run that ends with R leaves the
      camera outside its bounds. */
  lemma ResetEndsRunUnhealthy(c: Cam, es: seq<Event>)
    requires MinZoom <= c.targetZoom && TimeMovesForward(es)
    ensures TimeMovesForward(es + [Key("KeyR")])
    ensures !Healthy(Run(c, es + [Key("KeyR")], false))
  {
    RunSnoc(c, es, Key("KeyR"), false);
  }
}

=== FILE: catalog.dfy ===
/** The item table of the inventory (`itemTypes` in js/Inventory.js): every
    item the bag or the storage can hold, with its category and trade value.
    Emoji are display data and are left out. */
module Catalog {

  datatype Category = Fruit | Vegetable | Nature | Treasure | Magic

  datatype ItemInfo = ItemInfo(category: Category, value: nat)

  const ItemTypes: map<string, ItemInfo> := map[
    "사과" := ItemInfo(Fruit, 5),
    "오렌지" := ItemInfo(Fruit, 4),
    "바나나" := ItemInfo(Fruit, 3),
    "포도" := ItemInfo(Fruit, 6),
    "딸기" := ItemInfo(Fruit, 7),
    "배" := ItemInfo(Fruit, 4),
    "당근" := ItemInfo(Vegetable, 3),
    "양배추" := ItemInfo(Vegetable, 4),
    "감자" := ItemInfo(Vegetable, 2),
    "토마토" := ItemInfo(Vegetable, 5),
    "버섯" := ItemInfo(Nature, 8),
    "빨간버섯" := ItemInfo(Nature, 12),
    "갈색버섯" := ItemInfo(Nature, 10),
    "나무열매" := ItemInfo(Nature, 3),
    "꽃" := ItemInfo(Nature, 2),
    "약초" := ItemInfo(Nature, 15),
    "금화" := ItemInfo(Treasure, 50),
    "은화" := ItemInfo(Treasure, 25),
    "마법구슬" := ItemInfo(Magic, 100),
    "깃털" := ItemInfo(Nature, 8),
    "별가루" := ItemInfo(Magic, 80)
  ]

  predicate Known(name: string) {
    name in ItemTypes
  }

  /** `getItemValue`: the table's value, and 0 for a name the table lacks. */
  function ValueOf(name: string): (v: int)
    ensures v >= 0
    ensures !Known(name) ==> v == 0
    ensures Known(name) ==> v == ItemTypes[name].value
  {
    if name in ItemTypes then ItemTypes[name].value else 0
  }
}

=== FILE: environment.dfy ===
/** The world's interactive objects (`Environment` in js/Environment.js): the
    list of collectibles with its lookup and removal, the buildings with their
    lookup, and the random placement of trees, ground fruit and mushrooms that
    keeps them off the central crossing.

    Meshes and materials are left out; an object is its position and the
    `userData` fields the game logic reads. Random draws are parameters. */
module Environment {
  import opened Geometry
  import opened Maybe

  const MapSize: real := 50.0
  const TreeCount: nat := 30
  const GroundFruitCount: nat := 20
  const MushroomCount: nat := 12

  /** The fruit kinds a fruit can be, in the order the draw indexes them. */
  const FruitTypes: seq<string> := ["사과", "오렌지", "바나나", "포도", "딸기", "배"]

  /** What an object's `userData.type` says it is, with the extra name fruit
      and mushrooms carry. */
  datatype Kind =
    | Fruit(fruitType: string)
    | Mushroom(mushroomType: string)
    | Plain(typeName: string)

  /** A collectible entry; `collectible` is false also when the object has no
      `userData` at all. */
  datatype Item = Item(position: Vec3, kind: Kind, collectible: bool)

  datatype Building = Building(position: Vec3, typeName: string)

  /** `createBuildings`: the house, the shop and the storage, in that order. */
  const Buildings: seq<Building> := [
    Building(Vec3(15.0, 0.0, 15.0), "house"),
    Building(Vec3(-15.0, 0.0, 15.0), "shop"),
    Building(Vec3(0.0, 0.0, 20.0), "storage")
  ]

  // ---------------------------------------------------------------------------
  // Lookup and removal

  predicate Reachable(it: Item, at: Vec3, radius: real) {
    it.collectible && WithinDist(it.position, at, radius)
  }

  /** `getCollectibleAt`: the lowest index holding a collectible item within
      the radius, or none. */
  function GetCollectibleAt(items: seq<Item>, at: Vec3, radius: real): (r: Option<nat>)
    ensures r.None? <==> forall i :: 0 <= i < |items| ==> !Reachable(items[i], at, radius)
    ensures r.Some? ==> r.value < |items| && Reachable(items[r.value], at, radius)
    ensures r.Some? ==> forall j :: 0 <= j < r.value ==> !Reachable(items[j], at, radius)
    decreases |items|
  {
    if |items| == 0 then None
    else if Reachable(items[0], at, radius) then Some(0)
    else
      match GetCollectibleAt(items[1..], at, radius)
      case None => None
      case Some(k) => Some(k + 1)
  }

  /** `removeCollectible`: a bounds-checked splice. */
  function RemoveCollectible(items: seq<Item>, index: int): (r: (seq<Item>, bool))
    ensures r.1 <==> 0 <= index < |items|
    ensures !r.1 ==> r.0 == items
    ensures r.1 ==> |r.0| == |items| - 1
    ensures r.1 ==> forall j :: 0 <= j < index ==> r.0[j] == items[j]
    ensures r.1 ==> forall j :: index <= j < |r.0| ==> r.0[j] == items[j + 1]
  {
    if 0 <= index < |items| then (items[..index] + items[index + 1..], true) else (items, false)
  }

  /** Removal takes out exactly one occurrence of the element at the index. */
  lemma RemoveCollectibleIsExact(items: seq<Item>, index: int)
    requires 0 <= index < |items|
    ensures multiset(RemoveCollectible(items, index).0) + multiset{items[index]} == multiset(items)
  {
    assert items == items[..index] + [items[index]] + items[index + 1..];
  }

  /** `getBuildingAt`: the first building within the radius, or none. */
  function GetBuildingAt(buildings: seq<Building>, at: Vec3, radius: real): (r: Option<nat>)
    ensures r.None? <==> forall i :: 0 <= i < |buildings| ==> !WithinDist(buildings[i].position, at, radius)
    ensures r.Some? ==> r.value < |buildings| && WithinDist(buildings[r.value].position, at, radius)
    ensures r.Some? ==> forall j :: 0 <= j < r.value ==> !WithinDist(buildings[j].position, at, radius)
    decreases |buildings|
  {
    if |buildings| == 0 then None
    else if WithinDist(buildings[0].position, at, radius) then Some(0)
    else
      match GetBuildingAt(buildings[1..], at, radius)
      case None => None
      case Some(k) => Some(k + 1)
  }

  /** The buildings stand far enough apart that no point is within 7.5 of
      two of them, so at the player's interaction distance of 3 (and at the
      default radius of 2) the first building found is the only one in reach. */
  lemma BuildingsApart(p: Vec3, r: real)
    requires r <= 7.5
    ensures forall i, j :: 0 <= i < j < |Buildings| ==>
              !(WithinDist(Buildings[i].position, p, r) && WithinDist(Buildings[j].position, p, r))
    ensures GetBuildingAt(Buildings, p, r).Some? ==>
              forall j :: 0 <= j < |Buildings| && WithinDist(Buildings[j].position, p, r) ==>
                j == GetBuildingAt(Buildings, p, r).value
  {
    assert DistSq(Buildings[0].position, Buildings[1].position) == 900.0;
    assert DistSq(Buildings[0].position, Buildings[2].position) == 250.0;
    assert DistSq(Buildings[1].position, Buildings[2].position) == 250.0;
    if r >= 0.0 {
      assert r * r <= 56.25 by {
        assert r * r <= 7.5 * r <= 7.5 * 7.5;
      }
    }
    forall i, j | 0 <= i < j < |Buildings|
      ensures !(WithinDist(Buildings[i].position, p, r) && WithinDist(Buildings[j].position, p, r))
    {
      if WithinDist(Buildings[i].position, p, r) && WithinDist(Buildings[j].position, p, r) {
        NearBoth(p, Buildings[i].position, Buildings[j].position, r);
      }
    }
  }

  // ---------------------------------------------------------------------------
  // Placement

  /** The square around the crossing that placements avoid. */
  predicate OffCentre(x: real, z: real, half: real) {
    !(Abs(x) < half && Abs(z) < half)
  }

  /** One candidate coordinate from a draw in [0, 1). */
  function Spread(draw: real, scale: real): real {
    (draw - 0.5) * MapSize * scale
  }

  /** The rejection loop of one placement: candidates are drawn until one lies
      off the centre square. With a finite supply of draws the loop may run
      out, which gives none. */
  function FirstOffCentre(draws: seq<(real, real)>, scale: real, half: real): (r: Option<nat>)
    ensures r.None? <==> forall i :: 0 <= i < |draws| ==>
              !OffCentre(Spread(draws[i].0, scale), Spread(draws[i].1, scale), half)
    ensures r.Some? ==> r.value < |draws|
    ensures r.Some? ==> OffCentre(Spread(draws[r.value].0, scale), Spread(draws[r.value].1, scale), half)
    ensures r.Some? ==> forall j :: 0 <= j < r.value ==>
              !OffCentre(Spread(draws[j].0, scale), Spread(draws[j].1, scale), half)
    decreases |draws|
  {
    if |draws| == 0 then None
    else if OffCentre(Spread(draws[0].0, scale), Spread(draws[0].1, scale), half) then Some(0)
    else
      match FirstOffCentre(draws[1..], scale, half)
      case None => None
      case Some(k) => Some(k + 1)
  }

  /** The position a candidate draw pair gives. */
  function Candidate(d: (real, real), scale: real, height: real): Vec3 {
    Vec3(Spread(d.0, scale), height, Spread(d.1, scale))
  }

  /** Every candidate of the draws that lies off the centre square, in order:
      the positions an unbounded run of the rejection loop would place. */
  function Accepted(draws: seq<(real, real)>, scale: real, half: real, height: real): (r: seq<Vec3>)
    ensures |r| <= |draws|
    ensures forall i :: 0 <= i < |r| ==> OffCentre(r[i].x, r[i].z, half) && r[i].y == height
    decreases |draws|
  {
    if |draws| == 0 then []
    else
      var c := Candidate(draws[0], scale, height);
      (if OffCentre(c.x, c.z, half) then [c] else []) + Accepted(draws[1..], scale, half, height)
  }

  /** One run of the rejection loop consumes the draws up to and including the
      first accepted candidate, and places exactly that candidate. */
  lemma {:induction false} FirstOffCentreTakesAccepted(draws: seq<(real, real)>, scale: real, half: real, height: real)
    ensures FirstOffCentre(draws, scale, half).None? ==> Accepted(draws, scale, half, height) == []
    ensures FirstOffCentre(draws, scale, half).Some? ==>
              var k := FirstOffCentre(draws, scale, half).value;
              Accepted(draws, scale, half, height)
                == [Candidate(draws[k], scale, height)] + Accepted(draws[k + 1..], scale, half, height)
    decreases |draws|
  {
    if |draws| > 0 {
      FirstOffCentreTakesAccepted(draws[1..], scale, half, height);
      var c := Candidate(draws[0], scale, height);
      if !OffCentre(c.x, c.z, half) {
        var f := FirstOffCentre(draws[1..], scale, half);
        if f.Some? {
          assert draws[1..][f.value + 1..] == draws[f.value + 2..];
          assert draws[1..][f.value] == draws[f.value + 1];
        }
      }
    }
  }

  /** The placement loops of `createTrees`, `createFruits` and
      `createMushrooms`: `count` objects, each at the first accepted candidate
      after the previous one's. The positions placed are the first `count`
      accepted candidates, all of them off the centre square; fewer are placed
      only when the draws run out. */
  method Place(count: nat, draws: seq<(real, real)>, scale: real, half: real, height: real)
    returns (placed: seq<Vec3>)
    ensures |placed| <= count && |placed| <= |Accepted(draws, scale, half, height)|
    ensures placed == Accepted(draws, scale, half, height)[..|placed|]
    ensures |placed| < count ==> placed == Accepted(draws, scale, half, height)
    ensures forall i :: 0 <= i < |placed| ==> OffCentre(placed[i].x, placed[i].z, half) && placed[i].y == height
  {
    ghost var all := Accepted(draws, scale, half, height);
    placed := [];
    var rest := draws;
    while |placed| < count
      invariant |placed| <= count
      invariant placed + Accepted(rest, scale, half, height) == all
      decreases count - |placed|
    {
      FirstOffCentreTakesAccepted(rest, scale, half, height);
      var pick := FirstOffCentre(rest, scale, half);
      if pick.None? {
        SplitAt(placed, [], all);
        AcceptedPrefix(draws, scale, half, height, placed);
        return;
      }
      var k := pick.value;
      var c := Candidate(rest[k], scale, height);
      var next := rest[k + 1..];
      assert placed + Accepted(rest, scale, half, height) == (placed + [c]) + Accepted(next, scale, half, height);
      placed := placed + [c];
      rest := next;
    }
    SplitAt(placed, Accepted(rest, scale, half, height), all);
    AcceptedPrefix(draws, scale, half, height, placed);
  }

  /** The front part of a concatenation is its prefix of that length. */
  lemma SplitAt(front: seq<Vec3>, back: seq<Vec3>, whole: seq<Vec3>)
    requires front + back == whole
    ensures |front| <= |whole| && front == whole[..|front|]
    ensures back == [] ==> front == whole
  {
  }

  /** A prefix of the accepted candidates keeps their placement guarantees. */
  lemma AcceptedPrefix(draws: seq<(real, real)>, scale: real, half: real, height: real, placed: seq<Vec3>)
    requires |placed| <= |Accepted(draws, scale, half, height)|
    requires placed == Accepted(draws, scale, half, height)[..|placed|]
    ensures forall i :: 0 <= i < |placed| ==> OffCentre(placed[i].x, placed[i].z, half) && placed[i].y == height
  {
    var acc := Accepted(draws, scale, half, height);
    forall i | 0 <= i < |placed| ensures OffCentre(placed[i].x, placed[i].z, half) && placed[i].y == height {
      assert placed[i] == acc[i];
    }
  }

  /** `createTrees`: 30 trees, candidates across 1.5 map sizes, clear of a
      3-unit square around the crossing. */
  method CreateTrees(draws: seq<(real, real)>) returns (trees: seq<Vec3>)
    ensures |trees| <= TreeCount && |trees| <= |Accepted(draws, 1.5, 3.0, 0.0)|
    ensures trees == Accepted(draws, 1.5, 3.0, 0.0)[..|trees|]
    ensures |trees| < TreeCount ==> trees == Accepted(draws, 1.5, 3.0, 0.0)
    ensures forall i :: 0 <= i < |trees| ==> !(Abs(trees[i].x) < 3.0 && Abs(trees[i].z) < 3.0)
  {
    trees := Place(TreeCount, draws, 1.5, 3.0, 0.0);
  }

  /** `createFruit`'s pick of a fruit kind. */
  function FruitTypeAt(draw: real): (name: string)
    requires 0.0 <= draw < 1.0
    ensures name in FruitTypes
    ensures forall k :: 0 <= k < 6 && k as real / 6.0 <= draw < (k + 1) as real / 6.0 ==> name == FruitTypes[k]
  {
    var k := (draw * 6.0).Floor;
    FruitTypes[k]
  }

  /** `createMushroom`'s cap colour: the first of three colours is red, the
      other two (brown and purple) both count as brown mushrooms. */
  function MushroomTypeAt(draw: real): (name: string)
    requires 0.0 <= draw < 1.0
    ensures name == "빨간버섯" <==> draw < 1.0 / 3.0
    ensures name == "빨간버섯" || name == "갈색버섯"
  {
    if (draw * 3.0).Floor == 0 then "빨간버섯" else "갈색버섯"
  }

  predicate DrawsInRange(draws: seq<real>) {
    forall i :: 0 <= i < |draws| ==> 0.0 <= draws[i] < 1.0
  }

  /** `createFruits`: 20 fruit lying on the ground, candidates across 1.2 map
      sizes, clear of a 2-unit square; each is collectible. */
  method CreateGroundFruits(kindDraws: seq<real>, draws: seq<(real, real)>) returns (items: seq<Item>)
    requires |kindDraws| == GroundFruitCount && DrawsInRange(kindDraws)
    ensures |items| <= GroundFruitCount && |items| <= |Accepted(draws, 1.2, 2.0, 0.2)|
    ensures |items| < GroundFruitCount ==> |items| == |Accepted(draws, 1.2, 2.0, 0.2)|
    ensures forall i :: 0 <= i < |items| ==>
              items[i].position == Accepted(draws, 1.2, 2.0, 0.2)[i] && items[i].kind == Fruit(FruitTypeAt(kindDraws[i]))
    ensures forall i :: 0 <= i < |items| ==>
              && items[i].collectible && items[i].kind.Fruit? && items[i].kind.fruitType in FruitTypes
              && items[i].position.y == 0.2
              && !(Abs(items[i].position.x) < 2.0 && Abs(items[i].position.z) < 2.0)
  {
    var spots := Place(GroundFruitCount, draws, 1.2, 2.0, 0.2);
    items := seq(|spots|, i requires 0 <= i < |spots| => Item(spots[i], Fruit(FruitTypeAt(kindDraws[i])), true));
  }

  /** `createMushrooms`: 12 mushrooms across 1.3 map sizes, clear of a 2-unit
      square; each is collectible. */
  method CreateMushrooms(capDraws: seq<real>, draws: seq<(real, real)>) returns (items: seq<Item>)
    requires |capDraws| == MushroomCount && DrawsInRange(capDraws)
    ensures |items| <= MushroomCount && |items| <= |Accepted(draws, 1.3, 2.0, 0.0)|
    ensures |items| < MushroomCount ==> |items| == |Accepted(draws, 1.3, 2.0, 0.0)|
    ensures forall i :: 0 <= i < |items| ==>
              items[i].position == Accepted(draws, 1.3, 2.0, 0.0)[i]
              && items[i].kind == Mushroom(MushroomTypeAt(capDraws[i]))
    ensures forall i :: 0 <= i < |items| ==>
              && items[i].collectible && items[i].kind.Mushroom?
              && items[i].kind.mushroomType in {"빨간버섯", "갈색버섯"}
              && items[i].position.y == 0.0
              && !(Abs(items[i].position.x) < 2.0 && Abs(items[i].position.z) < 2.0)
  {
    var spots := Place(MushroomCount, draws, 1.3, 2.0, 0.0);
    items := seq(|spots|, i requires 0 <= i < |spots| => Item(spots[i], Mushroom(MushroomTypeAt(capDraws[i])), true));
  }
}

=== FILE: geometry.dfy ===
/** Numeric helpers shared by the game model: world positions, distance tests
    and the `Math.max(lo, Math.min(hi, v))` clamp the game uses everywhere.

    Distances are never computed with a square root: "distance <= r" is decided
    by comparing the squared distance with r*r, which is exact for Euclidean
    distance and a non-negative radius. */
module Geometry {

  /** A point of the world (the rendering library's three-component vector). */
  datatype Vec3 = Vec3(x: real, y: real, z: real)

  /** The square of `a`. Both branches compute `a * a`; the split by sign
      lets the solver see that the result is never negative without
      nonlinear reasoning. */
  function Sq(a: real): (r: real)
    ensures r >= 0.0
  {
    if a >= 0.0 then a * a else (-a) * (-a)
  }

  /** Squared Euclidean distance between two points. */
  function DistSq(a: Vec3, b: Vec3): (d: real)
    ensures d >= 0.0
  {
    Sq(a.x - b.x) + Sq(a.y - b.y) + Sq(a.z - b.z)
  }

  /** `a.distanceTo(b) <= r`: false for every negative radius. */
  predicate WithinDist(a: Vec3, b: Vec3, r: real) {
    r >= 0.0 && DistSq(a, b) <= r * r
  }

  /** `a.distanceTo(b) < r`: false for every radius that is not positive. */
  predicate CloserThan(a: Vec3, b: Vec3, r: real) {
    r > 0.0 && DistSq(a, b) < r * r
  }

  function Min(a: real, b: real): (r: real)
    ensures r <= a && r <= b
    ensures r == a || r == b
  {
    if a <= b then a else b
  }

  function Max(a: real, b: real): (r: real)
    ensures r >= a && r >= b
    ensures r == a || r == b
  {
    if a >= b then a else b
  }

  function Abs(a: real): (r: real)
    ensures r >= 0.0
    ensures r == a || r == -a
  {
    if a >= 0.0 then a else -a
  }

  /** `Math.max(lo, Math.min(hi, v))`. */
  function Clamp(lo: real, hi: real, v: real): (r: real)
    ensures lo <= hi ==> lo <= r <= hi
    ensures lo <= v <= hi ==> r == v
    ensures hi < lo ==> r == lo
  {
    Max(lo, Min(hi, v))
  }

  // ---------------------------------------------------------------------------
  // Separation

  /** The squared difference is at most twice the sum of the squares. */
  lemma SqDiffBound(u: real, v: real)
    ensures Sq(u - v) <= 2.0 * Sq(u) + 2.0 * Sq(v)
  {
    assert Sq(u) == u * u && Sq(v) == v * v && Sq(u - v) == (u - v) * (u - v);
    assert 2.0 * (u * u) + 2.0 * (v * v) - (u - v) * (u - v) == (u + v) * (u + v);
    assert Sq(u + v) == (u + v) * (u + v);
  }

  /** Two points both within `r` of a third are at most `2r` apart: a
      squared-distance form of the triangle inequality. */
  lemma NearBoth(p: Vec3, a: Vec3, b: Vec3, r: real)
    requires WithinDist(a, p, r) && WithinDist(b, p, r)
    ensures DistSq(a, b) <= 4.0 * (r * r)
  {
    SqDiffBound(a.x - p.x, b.x - p.x);
    SqDiffBound(a.y - p.y, b.y - p.y);
    SqDiffBound(a.z - p.z, b.z - p.z);
    assert a.x - b.x == (a.x - p.x) - (b.x - p.x);
    assert a.y - b.y == (a.y - p.y) - (b.y - p.y);
    assert a.z - b.z == (a.z - p.z) - (b.z - p.z);
  }
}

=== FILE: inventory.dfy ===
/** The player's bag and the village storage (class `Inventory` in
    js/Inventory.js).

    Both hold a map from item name to count plus a running counter, and both
    use the same add and remove logic with a different limit (50 for the bag,
    200 for the storage), so that logic is written once over a `Tally`.
    Counts are JavaScript numbers and are modelled as `int`; every caller in the
    game passes a quantity of at least 1, and the invariants are stated for
    such quantities. */
module Inventory {
  import opened Catalog

  const BagLimit: int := 50
  const StorageLimit: int := 200

  /** One container: a name-to-count map and its running counter
      (`items`/`currentCapacity` or `storageItems`/`currentStorageCapacity`). */
  datatype Tally = Tally(counts: map<string, int>, current: int)

  /** Result of an add or remove on one container: the container afterwards and
      the boolean the source returns. */
  datatype Change = Change(tally: Tally, ok: bool)

  /** The whole inventory. */
  datatype State = State(bag: Tally, storage: Tally)

  /** Result of an inventory operation. */
  datatype Step = Step(state: State, ok: bool)

  const Empty: State := State(Tally(map[], 0), Tally(map[], 0))

  // ---------------------------------------------------------------------------
  // Sums over a count map

  function One(name: string): int { 1 }

  /** Sum of `m[k] * w(k)` over the keys of `m`. */
  ghost function Sum(m: map<string, int>, w: string -> int): int
    decreases |m|
  {
    if m == map[] then 0
    else
      var k :| k in m;
      assert |m - {k}| < |m| by { assert (m - {k}).Keys < m.Keys; }
      m[k] * w(k) + Sum(m - {k}, w)
  }

  /** Sum of the counts: what the running counter is meant to equal. */
  ghost function Total(m: map<string, int>): int {
    Sum(m, One)
  }

  /** Sum of count times value: what `getTotalValue` computes. */
  ghost function Worth(m: map<string, int>): int {
    Sum(m, ValueOf)
  }

  /** Any key can be taken out first: the sum does not depend on the order. */
  lemma {:induction false} SumPick(m: map<string, int>, w: string -> int, k: string)
    requires k in m
    ensures Sum(m, w) == m[k] * w(k) + Sum(m - {k}, w)
    decreases |m|
  {
    var j :| j in m && Sum(m, w) == m[j] * w(j) + Sum(m - {j}, w);
    if j != k {
      assert (m - {j}).Keys < m.Keys;
      assert (m - {k}).Keys < m.Keys;
      SumPick(m - {j}, w, k);
      SumPick(m - {k}, w, j);
      assert m - {j} - {k} == m - {k} - {j};
    }
  }

  /** Effect of overwriting one entry on the sum. */
  lemma SumUpdate(m: map<string, int>, w: string -> int, k: string, v: int)
    ensures Sum(m[k := v], w) == Sum(m, w) - (if k in m then m[k] * w(k) else 0) + v * w(k)
  {
    SumPick(m[k := v], w, k);
    if k in m {
      assert m[k := v] - {k} == m - {k};
      SumPick(m, w, k);
    } else {
      assert m[k := v] - {k} == m;
    }
  }

  /** Adding `q` to one entry (creating it if absent) adds `q * w(k)` to the sum. */
  lemma SumAddTo(m: map<string, int>, w: string -> int, k: string, q: int)
    ensures Sum(m[k := Count(m, k) + q], w) == Sum(m, w) + q * w(k)
  {
    var c := Count(m, k);
    var wk := w(k);
    SumUpdate(m, w, k, c + q);
    assert (c + q) * wk == c * wk + q * wk;
  }

  /** Taking `q` from an entry that stays positive subtracts `q * w(k)`. */
  lemma SumTakeFrom(m: map<string, int>, w: string -> int, k: string, q: int)
    requires k in m
    ensures Sum(m[k := m[k] - q], w) == Sum(m, w) - q * w(k)
  {
    var c := m[k];
    var wk := w(k);
    SumUpdate(m, w, k, c - q);
    assert (c - q) * wk == c * wk - q * wk;
  }

  lemma SumSingleton(k: string, v: int, w: string -> int)
    ensures Sum(map[k := v], w) == v * w(k)
  {
    SumUpdate(map[], w, k, v);
  }

  // ---------------------------------------------------------------------------
  // Queries

  /** `getItemCount`: `items[name] || 0`. */
  function Count(m: map<string, int>, name: string): int {
    if name in m then m[name] else 0
  }

  /** `hasItem(name, q)`: the entry is truthy (present and non-zero) and at least `q`. */
  predicate Has(t: Tally, name: string, q: int) {
    name in t.counts && t.counts[name] != 0 && t.counts[name] >= q
  }

  /** The container invariant: only catalogue names, only positive counts, and
      the counter equal to the sum of the counts. */
  ghost predicate Tallied(t: Tally) {
    && (forall n :: n in t.counts ==> Known(n) && t.counts[n] > 0)
    && t.current == Total(t.counts)
  }

  /** The inventory invariant every game operation keeps. */
  ghost predicate Valid(s: State) {
    Tallied(s.bag) && Tallied(s.storage) && s.bag.current <= BagLimit
  }

  // ---------------------------------------------------------------------------
  // One container

  /** `addItem` / `addToStorage`: refuse an unknown name, refuse when the
      counter is already at or above the limit (the quantity is not part of the
      test), otherwise add `q` to the entry and to the counter. */
  function Add(t: Tally, name: string, q: int, limit: int): (r: Change)
    ensures r.ok <==> Known(name) && t.current < limit
    ensures !r.ok ==> r.tally == t
    ensures r.ok ==> r.tally.current == t.current + q
    ensures r.ok ==> Count(r.tally.counts, name) == Count(t.counts, name) + q
    ensures r.ok ==> forall n :: n != name ==> Count(r.tally.counts, n) == Count(t.counts, n)
    ensures r.ok ==> r.tally.counts.Keys == t.counts.Keys + {name}
  {
    if !Known(name) then Change(t, false)
    else if t.current >= limit then Change(t, false)
    else Change(Tally(t.counts[name := Count(t.counts, name) + q], t.current + q), true)
  }

  /** `removeItem` / `removeFromStorage`: refuse unless the entry holds at least
      `q`, otherwise subtract `q` from the entry and the counter and drop the
      entry once it is not positive. */
  function Remove(t: Tally, name: string, q: int): (r: Change)
    ensures r.ok <==> Has(t, name, q)
    ensures !r.ok ==> r.tally == t
    ensures r.ok ==> r.tally.current == t.current - q
    ensures r.ok ==> Count(r.tally.counts, name) == (if t.counts[name] - q > 0 then t.counts[name] - q else 0)
    ensures r.ok ==> forall n :: n != name ==> Count(r.tally.counts, n) == Count(t.counts, n)
    ensures r.ok ==> name in r.tally.counts ==> r.tally.counts[name] > 0
  {
    if !Has(t, name, q) then Change(t, false)
    else
      var left := t.counts[name] - q;
      var counts := if left <= 0 then t.counts - {name} else t.counts[name := left];
      Change(Tally(counts, t.current - q), true)
  }

  /** An add of a positive quantity keeps the container invariant. */
  lemma AddKeepsTallied(t: Tally, name: string, q: int, limit: int)
    requires Tallied(t) && q >= 1
    ensures Tallied(Add(t, name, q, limit).tally)
  {
    var r := Add(t, name, q, limit);
    if r.ok {
      var counts := t.counts[name := Count(t.counts, name) + q];
      assert r.tally == Tally(counts, t.current + q);
      SumAddTo(t.counts, One, name, q);
      assert q * One(name) == q;
      forall n | n in counts ensures Known(n) && counts[n] > 0 {
        if n != name { assert n in t.counts; }
      }
    }
  }

  /** A successful remove keeps the counter equal to the sum of the counts. */
  lemma RemoveKeepsTotal(t: Tally, name: string, q: int)
    requires t.current == Total(t.counts) && Remove(t, name, q).ok
    ensures Remove(t, name, q).tally.current == Total(Remove(t, name, q).tally.counts)
  {
    var r := Remove(t, name, q);
    var c := t.counts[name];
    var left := c - q;
    if left <= 0 {
      assert r.tally.counts == t.counts - {name};
      SumPick(t.counts, One, name);
      assert c * One(name) == q;
    } else {
      assert r.tally.counts == t.counts[name := left];
      SumTakeFrom(t.counts, One, name, q);
      assert q * One(name) == q;
    }
  }

  /** A remove of a positive quantity keeps the container invariant; in
      particular no entry is left at zero or below. */
  lemma RemoveKeepsTallied(t: Tally, name: string, q: int)
    requires Tallied(t) && q >= 1
    ensures Tallied(Remove(t, name, q).tally)
    ensures forall n :: n in Remove(t, name, q).tally.counts ==> Remove(t, name, q).tally.counts[n] > 0
  {
    var r := Remove(t, name, q);
    if r.ok {
      RemoveKeepsTotal(t, name, q);
      forall n | n in r.tally.counts ensures Known(n) && r.tally.counts[n] > 0 {
        assert n in t.counts;
      }
    }
  }

  /** A successful add raises the container's worth by `q` times the item's value. */
  lemma AddWorth(t: Tally, name: string, q: int, limit: int)
    requires Add(t, name, q, limit).ok
    ensures Worth(Add(t, name, q, limit).tally.counts) == Worth(t.counts) + q * ValueOf(name)
  {
    SumAddTo(t.counts, ValueOf, name, q);
  }

  /** A successful remove of a positive quantity lowers the worth by `q` times
      the item's value. */
  lemma RemoveWorth(t: Tally, name: string, q: int)
    requires Tallied(t) && q >= 1
    requires Remove(t, name, q).ok
    ensures Worth(Remove(t, name, q).tally.counts) == Worth(t.counts) - q * ValueOf(name)
  {
    var left := t.counts[name] - q;
    if left <= 0 {
      assert t.counts[name] == q;
      SumPick(t.counts, ValueOf, name);
    } else {
      SumTakeFrom(t.counts, ValueOf, name, q);
    }
  }

  // ---------------------------------------------------------------------------
  // The inventory operations

  function AddItem(s: State, name: string, q: int): (r: Step)
    ensures r.ok <==> Known(name) && s.bag.current < BagLimit
    ensures r.state.storage == s.storage
    ensures !r.ok ==> r.state == s
  {
    var c := Add(s.bag, name, q, BagLimit);
    Step(State(c.tally, s.storage), c.ok)
  }

  function RemoveItem(s: State, name: string, q: int): (r: Step)
    ensures r.ok <==> Has(s.bag, name, q)
    ensures r.state.storage == s.storage
    ensures !r.ok ==> r.state == s
  {
    var c := Remove(s.bag, name, q);
    Step(State(c.tally, s.storage), c.ok)
  }

  function AddToStorage(s: State, name: string, q: int): (r: Step)
    ensures r.ok <==> Known(name) && s.storage.current < StorageLimit
    ensures r.state.bag == s.bag
    ensures !r.ok ==> r.state == s
  {
    var c := Add(s.storage, name, q, StorageLimit);
    Step(State(s.bag, c.tally), c.ok)
  }

  function RemoveFromStorage(s: State, name: string, q: int): (r: Step)
    ensures r.ok <==> Has(s.storage, name, q)
    ensures r.state.bag == s.bag
    ensures !r.ok ==> r.state == s
  {
    var c := Remove(s.storage, name, q);
    Step(State(s.bag, c.tally), c.ok)
  }

  /** `transferToStorage`: take `q` out of the bag and put it into storage; when
      the storage refuses, the items are added back to the bag. */
  function TransferToStorage(s: State, name: string, q: int): (r: Step)
    ensures r.ok <==> Has(s.bag, name, q) && Known(name) && s.storage.current < StorageLimit
    ensures !Has(s.bag, name, q) ==> r == Step(s, false)
    ensures r.ok ==> Count(r.state.bag.counts, name) == Count(s.bag.counts, name) - q
                     && Count(r.state.storage.counts, name) == Count(s.storage.counts, name) + q
  {
    if !Has(s.bag, name, q) then Step(s, false)
    else
      var taken := RemoveItem(s, name, q);
      if !taken.ok then Step(s, false)
      else
        var stored := AddToStorage(taken.state, name, q);
        if stored.ok then stored
        else Step(AddItem(taken.state, name, q).state, false)
  }

  /** `transferFromStorage`: refuse when storage holds fewer than `q` or the bag
      would pass its limit; otherwise move `q` from storage into the bag. The
      result of the final `addItem` is not consulted. */
  function TransferFromStorage(s: State, name: string, q: int): (r: Step)
    ensures r.ok <==> Has(s.storage, name, q) && s.bag.current + q <= BagLimit
    ensures !r.ok ==> r.state == s
    ensures r.ok ==> Count(r.state.storage.counts, name) == Count(s.storage.counts, name) - q
    ensures r.ok && q >= 1 && Known(name) ==> Count(r.state.bag.counts, name) == Count(s.bag.counts, name) + q
    ensures r.ok && !Known(name) ==> r.state.bag == s.bag
    ensures r.ok ==> forall n :: n != name ==>
              Count(r.state.bag.counts, n) == Count(s.bag.counts, n)
              && Count(r.state.storage.counts, n) == Count(s.storage.counts, n)
  {
    if !Has(s.storage, name, q) then Step(s, false)
    else if s.bag.current + q > BagLimit then Step(s, false)
    else
      var taken := RemoveFromStorage(s, name, q);
      if !taken.ok then Step(s, false)
      else Step(AddItem(taken.state, name, q).state, true)
  }

  /** `getItemsByCategory`: the bag entries whose catalogue category is `c`. */
  function ItemsByCategory(s: State, c: Category): (r: map<string, int>)
    ensures forall n :: n in r <==> n in s.bag.counts && Known(n) && ItemTypes[n].category == c
    ensures forall n :: n in r ==> r[n] == s.bag.counts[n]
  {
    map n | n in s.bag.counts && n in ItemTypes && ItemTypes[n].category == c :: s.bag.counts[n]
  }

  /** `getTotalValue`: the sum over the bag of count times value. */
  method TotalValue(s: State) returns (total: int)
    ensures total == Worth(s.bag.counts)
  {
    total := 0;
    var rest := s.bag.counts;
    while rest != map[]
      invariant total + Worth(rest) == Worth(s.bag.counts)
      decreases |rest|
    {
      var k :| k in rest;
      SumPick(rest, ValueOf, k);
      assert (rest - {k}).Keys < rest.Keys;
      total := total + rest[k] * ValueOf(k);
      rest := rest - {k};
    }
  }

  // ---------------------------------------------------------------------------
  // Invariants of the whole inventory

  /** For every name, bag count plus storage count is the same in `a` and `b`. */
  ghost predicate SameHoldings(a: State, b: State) {
    forall n :: Count(a.bag.counts, n) + Count(a.storage.counts, n)
             == Count(b.bag.counts, n) + Count(b.storage.counts, n)
  }

  lemma EmptyIsValid()
    ensures Valid(Empty)
  {
    assert Total(map[]) == 0;
  }

  /** A unit add, or an add guarded the way `transferFromStorage` guards it,
      keeps the bag at or below its limit. */
  lemma AddItemKeepsValid(s: State, name: string, q: int)
    requires Valid(s) && q >= 1
    requires q == 1 || s.bag.current + q <= BagLimit
    ensures Valid(AddItem(s, name, q).state)
  {
    AddKeepsTallied(s.bag, name, q, BagLimit);
  }

  /** The limit test ignores the quantity: from a valid bag one step below the
      limit, an add of 10 succeeds and leaves the counter at 59. */
  lemma AddItemIgnoresQuantity()
    ensures var s := State(Tally(map["사과" := 49], 49), Tally(map[], 0));
            Valid(s) && AddItem(s, "사과", 10).ok && AddItem(s, "사과", 10).state.bag.current == 59
  {
    SumSingleton("사과", 49, One);
    assert Total(map[]) == 0;
  }

  lemma RemoveItemKeepsValid(s: State, name: string, q: int)
    requires Valid(s) && q >= 1
    ensures Valid(RemoveItem(s, name, q).state)
  {
    RemoveKeepsTallied(s.bag, name, q);
  }

  lemma AddToStorageKeepsValid(s: State, name: string, q: int)
    requires Valid(s) && q >= 1
    ensures Valid(AddToStorage(s, name, q).state)
  {
    AddKeepsTallied(s.storage, name, q, StorageLimit);
  }

  lemma RemoveFromStorageKeepsValid(s: State, name: string, q: int)
    requires Valid(s) && q >= 1
    ensures Valid(RemoveFromStorage(s, name, q).state)
  {
    RemoveKeepsTallied(s.storage, name, q);
  }

  /** When the removal succeeded, adding the same quantity back restores the
      bag exactly, provided the name is known and the bag is below its limit
      after the removal. */
  lemma RemoveThenAddRestores(t: Tally, name: string, q: int)
    requires Tallied(t) && q >= 1 && t.current <= BagLimit
    requires Remove(t, name, q).ok
    ensures Add(Remove(t, name, q).tally, name, q, BagLimit) == Change(t, true)
  {
    var c := t.counts[name];
    var left := c - q;
    var taken := Remove(t, name, q).tally;
    assert Known(name);
    if left <= 0 {
      assert taken.counts == t.counts - {name};
      assert taken.counts[name := c] == t.counts;
    } else {
      assert taken.counts == t.counts[name := left];
      assert taken.counts[name := c] == t.counts;
    }
  }

  /** `transferToStorage` keeps the invariant and moves items without creating
      or losing any; when it reports failure, the rollback has restored the
      inventory exactly. */
  lemma TransferToStorageSound(s: State, name: string, q: int)
    requires Valid(s) && q >= 1
    ensures Valid(TransferToStorage(s, name, q).state)
    ensures SameHoldings(TransferToStorage(s, name, q).state, s)
    ensures !TransferToStorage(s, name, q).ok ==> TransferToStorage(s, name, q).state == s
    ensures TransferToStorage(s, name, q).ok ==>
              TransferToStorage(s, name, q).state.bag.current == s.bag.current - q
              && TransferToStorage(s, name, q).state.storage.current == s.storage.current + q
  {
    var r := TransferToStorage(s, name, q);
    if Has(s.bag, name, q) {
      var taken := RemoveItem(s, name, q);
      RemoveItemKeepsValid(s, name, q);
      var stored := AddToStorage(taken.state, name, q);
      if stored.ok {
        AddToStorageKeepsValid(taken.state, name, q);
        assert r.state == stored.state;
        forall n ensures Count(r.state.bag.counts, n) + Count(r.state.storage.counts, n)
                      == Count(s.bag.counts, n) + Count(s.storage.counts, n)
        {
        }
      } else {
        RemoveThenAddRestores(s.bag, name, q);
        assert r.state == s;
      }
    }
  }

  /** `transferFromStorage` keeps the invariant (its explicit limit test is what
      keeps the bag at or below 50) and moves items without creating or losing
      any. */
  lemma TransferFromStorageSound(s: State, name: string, q: int)
    requires Valid(s) && q >= 1
    ensures Valid(TransferFromStorage(s, name, q).state)
    ensures SameHoldings(TransferFromStorage(s, name, q).state, s)
    ensures TransferFromStorage(s, name, q).ok ==>
              TransferFromStorage(s, name, q).state.bag.current == s.bag.current + q
              && TransferFromStorage(s, name, q).state.storage.current == s.storage.current - q
              && Count(TransferFromStorage(s, name, q).state.bag.counts, name) == Count(s.bag.counts, name) + q
  {
    var r := TransferFromStorage(s, name, q);
    if r.ok {
      var taken := RemoveFromStorage(s, name, q);
      RemoveFromStorageKeepsValid(s, name, q);
      assert Known(name);
      AddItemKeepsValid(taken.state, name, q);
      var added := AddItem(taken.state, name, q);
      assert added.ok;
      forall n ensures Count(r.state.bag.counts, n) + Count(r.state.storage.counts, n)
                    == Count(s.bag.counts, n) + Count(s.storage.counts, n)
      {
      }
    }
  }

  /** Every bag entry with a catalogue name is in the category query for its
      own category and in no other: the queries partition the bag. */
  lemma CategoriesPartitionBag(s: State, n: string, c: Category)
    requires Valid(s) && n in s.bag.counts
    ensures n in ItemsByCategory(s, c) <==> c == ItemTypes[n].category
  {
  }

  /** The value of the bag moves with every successful add and remove, as the
      sum of count times value requires. */
  lemma TotalValueTracksChanges(s: State, name: string, q: int)
    requires Valid(s) && q >= 1
    ensures AddItem(s, name, q).ok ==>
              Worth(AddItem(s, name, q).state.bag.counts) == Worth(s.bag.counts) + q * ValueOf(name)
    ensures RemoveItem(s, name, q).ok ==>
              Worth(RemoveItem(s, name, q).state.bag.counts) == Worth(s.bag.counts) - q * ValueOf(name)
  {
    if AddItem(s, name, q).ok { AddWorth(s.bag, name, q, BagLimit); }
    if RemoveItem(s, name, q).ok { RemoveWorth(s.bag, name, q); }
  }

  // ---------------------------------------------------------------------------
  // Storage limit: the code as written, and the intended check

  /** As written, `transferToStorage` can push the storage past its limit,
      because `addToStorage` tests only the counter before the add: a valid
      inventory with 195 items stored and 10 apples in the bag (the storage
      panel transfers `min(count, 10)` at a click) ends with 205 stored. */
  lemma StorageOverflowsAsWritten()
    ensures var s := State(Tally(map["사과" := 10], 10), Tally(map["배" := 195], 195));
            && Valid(s)
            && TransferToStorage(s, "사과", 10).ok
            && TransferToStorage(s, "사과", 10).state.storage.current == 205
  {
    SumSingleton("사과", 10, One);
    SumSingleton("배", 195, One);
  }

  /** The evidently intended storage add: refuse when the quantity would pass
      the limit, as `transferFromStorage` does for the bag. */
  function AddToStorageBounded(s: State, name: string, q: int): (r: Step)
    ensures r.ok <==> Known(name) && s.storage.current + q <= StorageLimit
    ensures r.state.bag == s.bag
    ensures !r.ok ==> r.state == s
    ensures r.ok ==> r.state.storage.current == s.storage.current + q
    ensures r.ok ==> Count(r.state.storage.counts, name) == Count(s.storage.counts, name) + q
    ensures r.ok ==> forall n :: n != name ==> Count(r.state.storage.counts, n) == Count(s.storage.counts, n)
  {
    if !Known(name) || s.storage.current + q > StorageLimit then Step(s, false)
    else
      var t := s.storage;
      Step(State(s.bag, Tally(t.counts[name := Count(t.counts, name) + q], t.current + q)), true)
  }

  lemma AddToStorageBoundedKeepsBounded(s: State, name: string, q: int)
    requires Bounded(s) && q >= 1
    ensures Bounded(AddToStorageBounded(s, name, q).state)
  {
    var r := AddToStorageBounded(s, name, q);
    if r.ok {
      var plain := Add(s.storage, name, q, StorageLimit);
      assert plain.ok;
      assert r.state == State(s.bag, plain.tally);
      AddKeepsTallied(s.storage, name, q, StorageLimit);
    }
  }

  /** `transferToStorage` built on the bounded storage add. */
  function TransferToStorageBounded(s: State, name: string, q: int): (r: Step)
    ensures r.ok <==> Has(s.bag, name, q) && Known(name) && s.storage.current + q <= StorageLimit
    ensures !Has(s.bag, name, q) ==> r == Step(s, false)
    ensures r.ok ==> Count(r.state.bag.counts, name) == Count(s.bag.counts, name) - q
                     && Count(r.state.storage.counts, name) == Count(s.storage.counts, name) + q
  {
    if !Has(s.bag, name, q) then Step(s, false)
    else
      var taken := RemoveItem(s, name, q);
      if !taken.ok then Step(s, false)
      else
        var stored := AddToStorageBounded(taken.state, name, q);
        if stored.ok then stored
        else Step(AddItem(taken.state, name, q).state, false)
  }

  /** Both containers within their limits, on top of `Valid`. */
  ghost predicate Bounded(s: State) {
    Valid(s) && s.storage.current <= StorageLimit
  }

  /** With the bounded add, a transfer to storage keeps both limits and
      conserves every item, and a refused one leaves the inventory as it was. */
  lemma BoundedTransferToStorageSound(s: State, name: string, q: int)
    requires Bounded(s) && q >= 1
    ensures Bounded(TransferToStorageBounded(s, name, q).state)
    ensures SameHoldings(TransferToStorageBounded(s, name, q).state, s)
    ensures !TransferToStorageBounded(s, name, q).ok ==> TransferToStorageBounded(s, name, q).state == s
    ensures TransferToStorageBounded(s, name, q).ok ==>
              TransferToStorageBounded(s, name, q).state.bag.current == s.bag.current - q
              && TransferToStorageBounded(s, name, q).state.storage.current == s.storage.current + q
  {
    var r := TransferToStorageBounded(s, name, q);
    if Has(s.bag, name, q) {
      var taken := RemoveItem(s, name, q);
      RemoveItemKeepsValid(s, name, q);
      var stored := AddToStorageBounded(taken.state, name, q);
      if stored.ok {
        AddToStorageBoundedKeepsBounded(taken.state, name, q);
        forall n ensures Count(r.state.bag.counts, n) + Count(r.state.storage.counts, n)
                      == Count(s.bag.counts, n) + Count(s.storage.counts, n)
        {
        }
      } else {
        RemoveThenAddRestores(s.bag, name, q);
        assert r.state == s;
      }
    }
  }

  /** A transfer from storage only lowers the storage counter, so it keeps
      both limits too. */
  lemma TransferFromStorageKeepsBounded(s: State, name: string, q: int)
    requires Bounded(s) && q >= 1
    ensures Bounded(TransferFromStorage(s, name, q).state)
  {
    TransferFromStorageSound(s, name, q);
    var f := TransferFromStorage(s, name, q);
    if f.ok {
      assert f.state.storage.current == s.storage.current - q;
    }
  }
}

=== FILE: npc.dfy ===
/** The base NPC of js/NPC.js: identity, dialog cycling, the interaction
    cooldown and the trade offer. Model construction, animation callbacks, the
    speech bubble and the random wander of `updateBehavior` are rendering and
    are not modelled; the position is kept as the point distances are measured
    from. */
module Npc {
  import opened Geometry

  /** Seconds an NPC refuses a new interaction after accepting one. */
  const InteractionCooldown: real := 1.0

  datatype Npc = Npc(
    name: string,
    position: Vec3,
    dialogs: seq<string>,
    dialogIndex: nat,
    cooldown: real,
    isInteracting: bool,
    tradeItems: seq<string>)

  /** The dialog index points into a non-empty dialog list. */
  predicate WellFormed(n: Npc) {
    |n.dialogs| > 0 && n.dialogIndex < |n.dialogs|
  }

  /** `getCurrentDialog`: the line at the index, and the index moved one step
      round the list. */
  function GetCurrentDialog(n: Npc): (r: (string, Npc))
    requires WellFormed(n)
    ensures r.0 == n.dialogs[n.dialogIndex]
    ensures WellFormed(r.1)
    ensures r.1.dialogIndex == (n.dialogIndex + 1) % |n.dialogs|
    ensures r.1 == n.(dialogIndex := r.1.dialogIndex)
  {
    (n.dialogs[n.dialogIndex], n.(dialogIndex := (n.dialogIndex + 1) % |n.dialogs|))
  }

  /** The NPC after one `getCurrentDialog` call, with the index written
      without the remainder: one step on, or back to 0 from the last line. */
  function Advance(n: Npc): (r: Npc)
    requires WellFormed(n)
    ensures WellFormed(r) && r.dialogs == n.dialogs
  {
    n.(dialogIndex := if n.dialogIndex + 1 < |n.dialogs| then n.dialogIndex + 1 else 0)
  }

  /** `Advance` is exactly the state change of `getCurrentDialog`. */
  lemma AdvanceIsGetCurrentDialog(n: Npc)
    requires WellFormed(n)
    ensures GetCurrentDialog(n) == (n.dialogs[n.dialogIndex], Advance(n))
  {
    var i := n.dialogIndex;
    if i + 1 < |n.dialogs| {
      assert (i + 1) % |n.dialogs| == i + 1;
    } else {
      assert (i + 1) % |n.dialogs| == 0;
    }
  }

  /** The lines of `k` successive `getCurrentDialog` calls, and the NPC after them. */
  function Talk(n: Npc, k: nat): (r: (seq<string>, Npc))
    requires WellFormed(n)
    ensures |r.0| == k && WellFormed(r.1)
    decreases k
  {
    if k == 0 then ([], n)
    else
      var (rest, last) := Talk(Advance(n), k - 1);
      ([n.dialogs[n.dialogIndex]] + rest, last)
  }

  /** Calls chain: `a + b` calls are `a` calls followed by `b` calls. */
  lemma {:induction false} TalkSplit(n: Npc, a: nat, b: nat)
    requires WellFormed(n)
    ensures Talk(n, a + b).0 == Talk(n, a).0 + Talk(Talk(n, a).1, b).0
    ensures Talk(n, a + b).1 == Talk(Talk(n, a).1, b).1
    decreases a
  {
    if a > 0 {
      var n1 := Advance(n);
      TalkSplit(n1, a - 1, b);
      assert a + b - 1 == (a - 1) + b;
    }
  }

  /** Until the end of the list is reached, successive calls show the lines in
      order; the index wraps to 0 exactly at the end. */
  lemma {:induction false} TalkForward(n: Npc, k: nat)
    requires WellFormed(n) && n.dialogIndex + k <= |n.dialogs|
    ensures Talk(n, k).0 == n.dialogs[n.dialogIndex..n.dialogIndex + k]
    ensures Talk(n, k).1 == n.(dialogIndex := if n.dialogIndex + k < |n.dialogs| then n.dialogIndex + k else 0)
    decreases k
  {
    if k > 0 {
      var i := n.dialogIndex;
      var n1 := Advance(n);
      if i + 1 < |n.dialogs| {
        TalkForward(n1, k - 1);
        var whole := n.dialogs[i..i + k];
        var split := [n.dialogs[i]] + n.dialogs[i + 1..i + k];
        assert |whole| == |split| == k;
        forall j | 0 <= j < k ensures whole[j] == split[j] {
          if j > 0 {
            assert split[j] == n.dialogs[i + 1..i + k][j - 1];
          }
        }
        assert whole == split;
      } else {
        assert k == 1 && n1 == n.(dialogIndex := 0);
        assert Talk(n1, 0) == ([], n1);
        assert n.dialogs[i..i + k] == [n.dialogs[i]];
      }
    }
  }

  /** As many calls as there are dialogs show every line once, starting at the
      current one and wrapping round, and leave the NPC exactly as it was. */
  lemma {:induction false} TalkFullCircle(n: Npc)
    requires WellFormed(n)
    ensures Talk(n, |n.dialogs|).0 == n.dialogs[n.dialogIndex..] + n.dialogs[..n.dialogIndex]
    ensures Talk(n, |n.dialogs|).1 == n
  {
    var i := n.dialogIndex;
    var L := |n.dialogs|;
    var a: nat := L - i;
    TalkSplit(n, a, i);
    TalkForward(n, a);
    var n1 := Talk(n, a).1;
    assert n1 == n.(dialogIndex := 0);
    TalkForward(n1, i);
    var n2 := Talk(n1, i).1;
    assert n2 == n;
    assert Talk(n, a).0 == n.dialogs[i..];
    assert Talk(n1, i).0 == n.dialogs[..i];
    assert a + i == L;
  }

  /** `NPC.interact`: refused with no change while the cooldown is positive;
      otherwise the NPC starts interacting, the cooldown restarts at one second,
      and the next dialog line is shown. */
  function Interact(n: Npc): (r: (Npc, bool, string))
    requires WellFormed(n)
    ensures !r.1 <==> n.cooldown > 0.0
    ensures !r.1 ==> r.0 == n
    ensures r.1 ==> r.0.isInteracting && r.0.cooldown == InteractionCooldown
    ensures r.1 ==> r.2 == n.dialogs[n.dialogIndex] && r.0.dialogIndex == (n.dialogIndex + 1) % |n.dialogs|
    ensures WellFormed(r.0)
  {
    if n.cooldown > 0.0 then (n, false, "")
    else
      var started := n.(isInteracting := true, cooldown := InteractionCooldown);
      var (line, talked) := GetCurrentDialog(started);
      (talked, true, line)
  }

  /** `endInteraction`: the NPC stops interacting; an NPC that was not
      interacting is left as it was. */
  function EndInteraction(n: Npc): (r: Npc)
    ensures !r.isInteracting
    ensures !n.isInteracting ==> r == n
    ensures r == n.(isInteracting := false)
  {
    n.(isInteracting := false)
  }

  /** A conversation opened on an idle NPC and then closed leaves the NPC as it
      was, except that it has moved on to the next dialog line and the cooldown
      has restarted; a refused one leaves it untouched. */
  lemma InteractThenEnd(n: Npc)
    requires WellFormed(n) && !n.isInteracting
    ensures Interact(n).1 ==> EndInteraction(Interact(n).0) == Advance(n).(cooldown := InteractionCooldown)
    ensures !Interact(n).1 ==> EndInteraction(Interact(n).0) == n
  {
    var started := n.(isInteracting := true, cooldown := InteractionCooldown);
    AdvanceIsGetCurrentDialog(started);
  }

  /** The cooldown part of `NPC.update`: a positive cooldown runs down by the
      frame time, a non-positive one is left alone. */
  function Tick(n: Npc, dt: real): (r: Npc)
    ensures n.cooldown > 0.0 ==> r.cooldown == n.cooldown - dt
    ensures n.cooldown <= 0.0 ==> r.cooldown == n.cooldown
    ensures r == n.(cooldown := r.cooldown)
  {
    if n.cooldown > 0.0 then n.(cooldown := n.cooldown - dt) else n
  }

  function SumTimes(dts: seq<real>): real
    decreases |dts|
  {
    if |dts| == 0 then 0.0 else dts[0] + SumTimes(dts[1..])
  }

  /** `Tick` over a series of frames. */
  function Ticks(n: Npc, dts: seq<real>): Npc
    decreases |dts|
  {
    if |dts| == 0 then n else Ticks(Tick(n, dts[0]), dts[1..])
  }

  /** Once frames adding up to the remaining cooldown have passed, the NPC
      accepts an interaction again; the cooldown never rises in between. */
  lemma {:induction false} CooldownExpires(n: Npc, dts: seq<real>)
    requires forall i :: 0 <= i < |dts| ==> dts[i] >= 0.0
    ensures Ticks(n, dts).cooldown <= Max(0.0, n.cooldown - SumTimes(dts))
    ensures Ticks(n, dts).cooldown <= Max(0.0, n.cooldown)
    decreases |dts|
  {
    if |dts| > 0 {
      CooldownExpires(Tick(n, dts[0]), dts[1..]);
    }
  }

  /** `canTrade`: the NPC offers at least one item. */
  function CanTrade(n: Npc): (ok: bool)
    ensures ok <==> n.tradeItems != []
  {
    |n.tradeItems| > 0
  }

  /** The trade offer is fixed at construction: talking, ending a
      conversation and the passing cooldown never change whether, or what, an
      NPC trades. */
  lemma TradeOfferIsFixed(n: Npc, dt: real)
    requires WellFormed(n)
    ensures GetCurrentDialog(n).1.tradeItems == n.tradeItems
    ensures Interact(n).0.tradeItems == n.tradeItems && (CanTrade(Interact(n).0) <==> CanTrade(n))
    ensures EndInteraction(n).tradeItems == n.tradeItems && (CanTrade(EndInteraction(n)) <==> CanTrade(n))
    ensures Tick(n, dt).tradeItems == n.tradeItems && (CanTrade(Tick(n, dt)) <==> CanTrade(n))
  {
  }
}

=== FILE: npc_manager.dfy ===
/** `SmartNPCManager` (js/NPC.js): the four animal NPCs of the village, the
    player's interaction with the nearest ready one, lookup by name and the
    per-frame update. */
module NpcManager {
  import opened Geometry
  import opened Maybe
  import Catalog
  import N = Npc
  import S = SmartNpc

  function LunaConfig(): S.Config {
    S.Config("루나", Vec3(10.0, 0.0, 5.0),
             Some(["안녕하세요! 저는 루나예요!", "이 숲에서 사과를 찾고 있어요.",
                   "혹시 빨간 사과 있으면 교환해주세요!", "배가 고파요... 🍎"]),
             ["당근", "양배추"], Some(S.Friendly),
             Some(8.0), None, None, None, Some(1.2), None, None)
  }

  function FoxConfig(): S.Config {
    S.Config("폭스", Vec3(-8.0, 0.0, 12.0),
             Some(["여우 폭스입니다! 🦊", "저는 반짝이는 것을 좋아해요.",
                   "금화나 보석 있으면 좋은 거로 바꿔드릴게요!", "약초도 관심 있어요."]),
             ["금화", "은화", "약초"], Some(S.Personality.Curious),
             Some(10.0), None, None, None, Some(1.5), None, None)
  }

  function NobleConfig(): S.Config {
    S.Config("노블", Vec3(0.0, 0.0, -15.0),
             Some(["안녕하세요, 저는 사슴 노블입니다.", "숲의 지혜를 나누고 싶어요.",
                   "버섯이나 나무열매에 관심이 있어요.", "자연의 선물을 소중히 여겨요."]),
             ["버섯", "나무열매", "꽃"], Some(S.Shy),
             Some(12.0), None, None, None, Some(0.8), None, None)
  }

  function ArtemisConfig(): S.Config {
    S.Config("아르테미스", Vec3(15.0, 0.0, -8.0),
             Some(["부엉~ 저는 올빼미 아르테미스입니다.", "밤에 활동하지만 낮에도 깨어있어요.",
                   "신비한 물건들을 수집하고 있어요.", "마법 아이템이 있으면 교환해드릴게요!"]),
             ["마법구슬", "깃털", "별가루"], Some(S.Playful),
             Some(9.0), None, None, None, Some(1.8), None, None)
  }

  /** `createNPCs`: one NPC per configuration, in order. */
  function InitialNpcs(): (r: seq<S.Smart>)
    ensures |r| == 4
    ensures forall i :: 0 <= i < |r| ==> S.Calm(r[i]) && r[i].state == S.Idle
  {
    [S.Create(LunaConfig()), S.Create(FoxConfig()), S.Create(NobleConfig()), S.Create(ArtemisConfig())]
  }

  /** Every NPC of the village can trade, and everything it offers is an item
      the inventory knows, so a trade never brings in an item the bag refuses
      as unknown. */
  lemma InitialNpcsTradeKnownItems()
    ensures forall i :: 0 <= i < |InitialNpcs()| ==> N.CanTrade(InitialNpcs()[i].base)
    ensures forall i, j :: 0 <= i < |InitialNpcs()| && 0 <= j < |InitialNpcs()[i].base.tradeItems| ==>
              Catalog.Known(InitialNpcs()[i].base.tradeItems[j])
  {
    var r := InitialNpcs();
    assert r[0].base.tradeItems == ["당근", "양배추"];
    assert r[1].base.tradeItems == ["금화", "은화", "약초"];
    assert r[2].base.tradeItems == ["버섯", "나무열매", "꽃"];
    assert r[3].base.tradeItems == ["마법구슬", "깃털", "별가루"];
  }

  /** The NPCs whose names are pairwise distinct can be found by name. */
  predicate DistinctNames(npcs: seq<S.Smart>) {
    forall i, j :: 0 <= i < j < |npcs| ==> npcs[i].base.name != npcs[j].base.name
  }

  // ---------------------------------------------------------------------------
  // Interaction

  /** An NPC answers the player when it is within the interaction distance and
      its cooldown has run out. */
  predicate Ready(n: S.Smart, player: Vec3, distance: real) {
    WithinDist(n.base.position, player, distance) && n.base.cooldown <= 0.0
  }

  /** `handlePlayerInteraction`: walks the NPCs in order; the first one within
      the distance whose interaction succeeds is the one the player talks to,
      and no NPC after it is touched. */
  method HandlePlayerInteraction(npcs: seq<S.Smart>, player: Vec3, distance: real)
    returns (out: seq<S.Smart>, hit: Option<nat>)
    requires forall i :: 0 <= i < |npcs| ==> N.WellFormed(npcs[i].base)
    ensures |out| == |npcs|
    ensures hit.None? <==> forall i :: 0 <= i < |npcs| ==> !Ready(npcs[i], player, distance)
    ensures hit.Some? ==> hit.value < |npcs| && Ready(npcs[hit.value], player, distance)
    ensures hit.Some? ==> forall j :: 0 <= j < hit.value ==> !Ready(npcs[j], player, distance)
    ensures hit.Some? ==> out[hit.value] == S.Interact(npcs[hit.value]).0
    ensures hit.Some? ==> out[hit.value].state == S.Interacting && out[hit.value].base.cooldown == N.InteractionCooldown
    ensures forall i :: 0 <= i < |npcs| && (hit.None? || i != hit.value) ==> out[i] == npcs[i]
  {
    out := npcs;
    hit := None;
    var i := 0;
    while i < |npcs|
      invariant 0 <= i <= |npcs|
      invariant |out| == |npcs|
      invariant hit.None? ==> forall j :: 0 <= j < i ==> !Ready(npcs[j], player, distance)
      invariant hit.Some? ==> hit.value < i && Ready(npcs[hit.value], player, distance)
      invariant hit.Some? ==> forall j :: 0 <= j < hit.value ==> !Ready(npcs[j], player, distance)
      invariant hit.Some? ==> out[hit.value] == S.Interact(npcs[hit.value]).0
      invariant forall j :: 0 <= j < |npcs| && (hit.None? || j != hit.value) ==> out[j] == npcs[j]
    {
      if WithinDist(npcs[i].base.position, player, distance) && hit.None? {
        var (m, ok) := S.Interact(npcs[i]);
        if ok {
          out := out[i := m];
          hit := Some(i);
        }
      }
      i := i + 1;
    }
  }

  // ---------------------------------------------------------------------------
  // Lookup

  /** `getNPCByName` as the index of the first NPC with that name. */
  function FindByName(npcs: seq<S.Smart>, name: string): (r: Option<nat>)
    ensures r.None? <==> forall i :: 0 <= i < |npcs| ==> npcs[i].base.name != name
    ensures r.Some? ==> r.value < |npcs| && npcs[r.value].base.name == name
    ensures r.Some? ==> forall j :: 0 <= j < r.value ==> npcs[j].base.name != name
    decreases |npcs|
  {
    if |npcs| == 0 then None
    else if npcs[0].base.name == name then Some(0)
    else
      match FindByName(npcs[1..], name)
      case None => None
      case Some(k) => Some(k + 1)
  }

  /** `getNPCByName`: `find` returns the first NPC with the name. */
  function GetNpcByName(npcs: seq<S.Smart>, name: string): (r: Option<S.Smart>)
    ensures r.Some? ==> r.value in npcs && r.value.base.name == name
    ensures r.Some? ==> exists i :: 0 <= i < |npcs| && npcs[i] == r.value
                          && forall j :: 0 <= j < i ==> npcs[j].base.name != name
    ensures r.Some? ==> FindByName(npcs, name).Some? && r.value == npcs[FindByName(npcs, name).value]
    ensures r.None? <==> forall i :: 0 <= i < |npcs| ==> npcs[i].base.name != name
  {
    match FindByName(npcs, name)
    case None => None
    case Some(k) => Some(npcs[k])
  }

  /** With distinct names, looking up the name of the i-th NPC finds exactly it. */
  lemma FindsEachByName(npcs: seq<S.Smart>, i: nat)
    requires DistinctNames(npcs) && i < |npcs|
    ensures FindByName(npcs, npcs[i].base.name) == Some(i)
  {
  }

  lemma InitialNamesDistinct()
    ensures DistinctNames(InitialNpcs())
    ensures GetNpcByName(InitialNpcs(), "루나").Some?
    ensures GetNpcByName(InitialNpcs(), "여우").None?
  {
    var r := InitialNpcs();
    assert r[0].base.name == "루나" && r[1].base.name == "폭스";
    assert r[2].base.name == "노블" && r[3].base.name == "아르테미스";
    assert "여우" != "폭스";
  }

  // ---------------------------------------------------------------------------
  // Per-frame update

  /** `update`: every NPC takes the frame, each with its own view of the player
      and its own random draws. */
  function UpdateAll(npcs: seq<S.Smart>, player: Option<Vec3>, facing: seq<bool>, dt: real, draws: seq<S.Draws>)
    : (r: seq<S.Smart>)
    requires dt >= 0.0 && |facing| == |npcs| && |draws| == |npcs|
    ensures |r| == |npcs|
    ensures forall i :: 0 <= i < |npcs| && S.Calm(npcs[i]) ==> S.Calm(r[i]) && r[i].energy <= npcs[i].energy
    ensures forall i :: 0 <= i < |npcs| ==> r[i].base.name == npcs[i].base.name
  {
    seq(|npcs|, i requires 0 <= i < |npcs| => S.Update(npcs[i], player, facing[i], dt, draws[i]))
  }
}

=== FILE: option.dfy ===
/** An optional value: a JavaScript `null`/`undefined` result or an absent
    configuration field. */
module Maybe {
  datatype Option<T> = None | Some(value: T)
}

=== FILE: selection.dfy ===
/** The two selection lists of the trade panel (`togglePlayerTradeItem` and
    `toggleNPCTradeItem` in js/Game.js): names are toggled in and out, and a
    list without duplicates never gains one. */
module Selection {
  predicate NoDup(l: seq<string>) {
    forall i, j :: 0 <= i < j < |l| ==> l[i] != l[j]
  }

  /** `Array.prototype.indexOf`: the first position holding `n`, or -1. */
  function IndexOf(l: seq<string>, n: string): (i: int)
    ensures -1 <= i < |l|
    ensures i == -1 <==> n !in l
    ensures i >= 0 ==> l[i] == n && forall j :: 0 <= j < i ==> l[j] != n
  {
    if |l| == 0 then -1
    else if l[0] == n then 0
    else
      var k := IndexOf(l[1..], n);
      if k < 0 then -1 else k + 1
  }

  /** `togglePlayerTradeItem` / `toggleNPCTradeItem`: drop the first occurrence
      of `n`, keeping the others in order, or append `n` when it is not
      selected. */
  function Toggle(l: seq<string>, n: string): (r: seq<string>)
    ensures n !in l ==> r == l + [n]
    ensures n in l ==> |r| == |l| - 1 && multiset(r) + multiset{n} == multiset(l)
    ensures n in l ==> forall j :: 0 <= j < IndexOf(l, n) ==> r[j] == l[j]
    ensures n in l ==> forall j :: IndexOf(l, n) <= j < |r| ==> r[j] == l[j + 1]
  {
    var i := IndexOf(l, n);
    if i > -1 then
      assert l == l[..i] + [n] + l[i + 1..];
      l[..i] + l[i + 1..]
    else l + [n]
  }

  /** On a list without duplicates, toggling flips the membership of `n`, keeps
      every other name's membership, and never creates a duplicate. */
  lemma ToggleFlips(l: seq<string>, n: string)
    requires NoDup(l)
    ensures n in Toggle(l, n) <==> n !in l
    ensures forall m :: m != n ==> (m in Toggle(l, n) <==> m in l)
    ensures NoDup(Toggle(l, n))
  {
    var r := Toggle(l, n);
    if n in l {
      var i := IndexOf(l, n);
      assert r == l[..i] + l[i + 1..];
      forall m | m != n ensures m in r <==> m in l {
        if m in l {
          var k :| 0 <= k < |l| && l[k] == m;
          if k < i { assert r[k] == m; } else { assert k > i; assert r[k - 1] == m; }
        }
      }
      forall k | 0 <= k < |r| ensures r[k] != n {
        if k < i { assert r[k] == l[k]; } else { assert r[k] == l[k + 1]; }
      }
      forall a, b | 0 <= a < b < |r| ensures r[a] != r[b] {
        var a' := if a < i then a else a + 1;
        var b' := if b < i then b else b + 1;
        assert r[a] == l[a'] && r[b] == l[b'];
      }
    }
  }

  /** Toggling a name that is not selected twice restores the list. */
  lemma ToggleTwiceAbsent(l: seq<string>, n: string)
    requires n !in l
    ensures Toggle(Toggle(l, n), n) == l
  {
    var l1 := l + [n];
    var i := IndexOf(l1, n);
    assert l1[|l|] == n;
    assert i == |l|;
    assert l1[..i] == l;
  }

  /** Toggling a selected name twice moves it to the end: the selection is the
      same set, and the list is unchanged exactly when the name was last. */
  lemma ToggleTwicePresent(l: seq<string>, n: string)
    requires NoDup(l) && n in l
    ensures multiset(Toggle(Toggle(l, n), n)) == multiset(l)
    ensures Toggle(Toggle(l, n), n) == l <==> l[|l| - 1] == n
  {
    var i := IndexOf(l, n);
    var l1 := l[..i] + l[i + 1..];
    assert Toggle(l, n) == l1;
    ToggleFlips(l, n);
    var l2 := l1 + [n];
    assert Toggle(l1, n) == l2;
    assert l == l[..i] + [n] + l[i + 1..];
    assert multiset(l2) == multiset(l[..i]) + multiset(l[i + 1..]) + multiset{n};
    if l2 == l {
      assert l[|l| - 1] == l2[|l2| - 1];
    }
    if l[|l| - 1] == n {
      assert l[i] == l[|l| - 1];
      assert i == |l| - 1;
      assert l1 == l[..|l| - 1];
    }
  }

  /** The tail of a duplicate-free list is duplicate-free and lacks the head. */
  lemma NoDupTail(l: seq<string>)
    requires NoDup(l) && |l| > 0
    ensures NoDup(l[1..]) && l[0] !in l[1..]
    ensures forall n :: n in l <==> n == l[0] || n in l[1..]
  {
    forall k | 0 <= k < |l| - 1 ensures l[1..][k] != l[0] {
      assert l[1..][k] == l[k + 1];
    }
    assert l == [l[0]] + l[1..];
  }
}

=== FILE: smart_npc.dfy ===
/** The animal NPCs' behaviour (class `SmartNPC` in js/SmartNPC.js): the
    six-state AI machine, the personality-driven reaction to the player, the
    speed effects of entering a state, mood and energy, and the `interact`
    override.

    Inputs the source reads from the rendering library or from `Math.random`
    are parameters: the player's position (distances are measured from the
    NPC's position), whether the player is in the NPC's field of view (the dot
    product of `canSeePlayer`), the frame time, and the random draws. Movement
    itself is vector arithmetic and is not modelled; what the AI remembers of
    it is whether a movement target has been set. */
module SmartNpc {
  import opened Geometry
  import opened Maybe
  import N = Npc

  datatype AiState = Idle | Wandering | Following | Interacting | Avoiding | Curious

  /** The configured personality; `Other` is any string none of the switches
      name, for which they do nothing. */
  datatype Personality = Friendly | Shy | Curious | Playful | Lazy | Other

  /** The random draws of one AI frame, each in [0, 1). */
  datatype Draws = Draws(idleWait: real, wanderWait: real, react: real, playful: real, observe: real)

  predicate DrawsOk(d: Draws) {
    && 0.0 <= d.idleWait < 1.0 && 0.0 <= d.wanderWait < 1.0 && 0.0 <= d.react < 1.0
    && 0.0 <= d.playful < 1.0 && 0.0 <= d.observe < 1.0
  }

  datatype Smart = Smart(
    base: N.Npc,
    personality: Personality,
    state: AiState,
    stateTimer: real,
    detectionRadius: real,
    interactionRadius: real,
    followRadius: real,
    personalSpace: real,
    moveSpeed: real,
    runSpeed: real,
    currentSpeed: real,
    attentionSpan: real,
    mood: real,
    energy: real,
    isLookingAtPlayer: bool,
    isMoving: bool,
    isRunning: bool,
    hasTarget: bool)

  /** The configuration object of the constructor. An absent number, like
      one set to 0, falls back to the default (`config.x || default`); an
      absent name is the empty string, which falls back to "NPC". `None` as
      the personality stands for every falsy value (absent or the empty
      string), which falls back to friendly; `Other` is any other
      unrecognised name. */
  datatype Config = Config(
    name: string,
    position: Vec3,
    dialogs: Option<seq<string>>,
    tradeItems: seq<string>,
    personality: Option<Personality>,
    detectionRadius: Option<real>,
    interactionRadius: Option<real>,
    followRadius: Option<real>,
    personalSpace: Option<real>,
    moveSpeed: Option<real>,
    runSpeed: Option<real>,
    attentionSpan: Option<real>)

  function OrDefault(o: Option<real>, d: real): (r: real)
    ensures o.Some? && o.value != 0.0 ==> r == o.value
    ensures o.None? || o.value == 0.0 ==> r == d
  {
    if o.Some? && o.value != 0.0 then o.value else d
  }

  /** The constructor followed by `setupAI`. The current speed is taken from
      the configured move speed before `setupAI` scales it. An empty dialog
      list is kept as given (an empty array is not a missing one), and only a
      non-empty list gives a well-formed NPC. */
  function Create(c: Config): (r: Smart)
    ensures r.base.dialogs == (if c.dialogs.Some? then c.dialogs.value else ["안녕하세요!"])
    ensures N.WellFormed(r.base) <==> c.dialogs.None? || |c.dialogs.value| > 0
    ensures r.base.name == (if c.name == "" then "NPC" else c.name)
    ensures r.base.position == c.position && r.base.tradeItems == c.tradeItems
    ensures r.base.dialogIndex == 0 && !r.base.isInteracting
    ensures r.state == Idle && r.stateTimer == 0.0
    ensures r.mood == 1.0 && r.energy == 1.0 && r.base.cooldown == 0.0
    ensures r.personality == (if c.personality.Some? then c.personality.value else Friendly)
    ensures r.interactionRadius == OrDefault(c.interactionRadius, 3.0)
    ensures r.followRadius == OrDefault(c.followRadius, 15.0)
    ensures r.personality == Shy ==> r.personalSpace == 2.0 * OrDefault(c.personalSpace, 2.0)
    ensures r.personality != Shy ==> r.personalSpace == OrDefault(c.personalSpace, 2.0)
    ensures r.personality == Shy ==> r.detectionRadius == 1.5 * OrDefault(c.detectionRadius, 8.0)
    ensures r.personality == Personality.Curious ==> r.detectionRadius == 1.3 * OrDefault(c.detectionRadius, 8.0)
    ensures r.personality !in {Shy, Personality.Curious} ==> r.detectionRadius == OrDefault(c.detectionRadius, 8.0)
    ensures r.personality == Shy ==> r.moveSpeed == 0.8 * OrDefault(c.moveSpeed, 1.0)
    ensures r.personality == Personality.Curious ==> r.moveSpeed == 1.2 * OrDefault(c.moveSpeed, 1.0)
    ensures r.personality == Lazy ==> r.moveSpeed == 0.6 * OrDefault(c.moveSpeed, 1.0)
    ensures r.personality !in {Shy, Personality.Curious, Lazy} ==> r.moveSpeed == OrDefault(c.moveSpeed, 1.0)
    ensures r.personality == Playful ==> r.runSpeed == 1.3 * OrDefault(c.runSpeed, 2.5)
    ensures r.personality != Playful ==> r.runSpeed == OrDefault(c.runSpeed, 2.5)
    ensures r.personality == Personality.Curious ==> r.attentionSpan == 1.5 * OrDefault(c.attentionSpan, 5.0)
    ensures r.personality == Playful ==> r.attentionSpan == 0.7 * OrDefault(c.attentionSpan, 5.0)
    ensures r.personality == Lazy ==> r.attentionSpan == 2.0 * OrDefault(c.attentionSpan, 5.0)
    ensures r.personality !in {Personality.Curious, Playful, Lazy} ==> r.attentionSpan == OrDefault(c.attentionSpan, 5.0)
    ensures r.currentSpeed == OrDefault(c.moveSpeed, 1.0)
  {
    var base := N.Npc(if c.name == "" then "NPC" else c.name, c.position,
                      if c.dialogs.Some? then c.dialogs.value else ["안녕하세요!"],
                      0, 0.0, false, c.tradeItems);
    var move := OrDefault(c.moveSpeed, 1.0);
    var personality := if c.personality.Some? then c.personality.value else Friendly;
    var plain := Smart(base, personality, Idle, 0.0,
                       OrDefault(c.detectionRadius, 8.0), OrDefault(c.interactionRadius, 3.0),
                       OrDefault(c.followRadius, 15.0), OrDefault(c.personalSpace, 2.0),
                       move, OrDefault(c.runSpeed, 2.5), move, OrDefault(c.attentionSpan, 5.0),
                       1.0, 1.0, false, false, false, false);
    SetupAi(plain)
  }

  /** `setupAI`: the personality's adjustments to radii, speeds and attention. */
  function SetupAi(n: Smart): (r: Smart)
    ensures r == n.(detectionRadius := r.detectionRadius, personalSpace := r.personalSpace,
                    moveSpeed := r.moveSpeed, runSpeed := r.runSpeed, attentionSpan := r.attentionSpan)
    ensures r.detectionRadius == n.detectionRadius * (match n.personality case Shy => 1.5 case Curious => 1.3 case _ => 1.0)
    ensures r.personalSpace == n.personalSpace * (if n.personality == Shy then 2.0 else 1.0)
    ensures r.moveSpeed == n.moveSpeed * (match n.personality case Shy => 0.8 case Curious => 1.2 case Lazy => 0.6 case _ => 1.0)
    ensures r.runSpeed == n.runSpeed * (if n.personality == Playful then 1.3 else 1.0)
    ensures r.attentionSpan == n.attentionSpan * (match n.personality case Curious => 1.5 case Playful => 0.7 case Lazy => 2.0 case _ => 1.0)
  {
    match n.personality
    case Shy => n.(detectionRadius := n.detectionRadius * 1.5, personalSpace := n.personalSpace * 2.0,
                   moveSpeed := n.moveSpeed * 0.8)
    case Curious => n.(detectionRadius := n.detectionRadius * 1.3, attentionSpan := n.attentionSpan * 1.5,
                       moveSpeed := n.moveSpeed * 1.2)
    case Playful => n.(runSpeed := n.runSpeed * 1.3, attentionSpan := n.attentionSpan * 0.7)
    case Lazy => n.(moveSpeed := n.moveSpeed * 0.6, attentionSpan := n.attentionSpan * 2.0)
    case _ => n
  }

  // ---------------------------------------------------------------------------
  // State changes

  /** `onStateChange`: the immediate effects of entering a state. */
  function OnStateChange(n: Smart, s: AiState): Smart {
    match s
    case Curious => n.(isLookingAtPlayer := true)
    case Following => n.(isLookingAtPlayer := true)
    case Avoiding => n.(isLookingAtPlayer := false, currentSpeed := n.runSpeed)
    case Interacting => n.(isLookingAtPlayer := true)
    case Wandering => n.(isLookingAtPlayer := false, hasTarget := true)
    case Idle => n.(isLookingAtPlayer := false, currentSpeed := n.moveSpeed)
  }

  /** `changeState`: nothing happens when the state is already `s`; otherwise
      the state becomes `s`, its timer restarts and the entry effects apply. */
  function ChangeState(n: Smart, s: AiState): (r: Smart)
    ensures n.state == s ==> r == n
    ensures n.state != s ==> r.state == s && r.stateTimer == 0.0
    ensures n.state != s && s == Idle ==> r.currentSpeed == n.moveSpeed
    ensures n.state != s && s == Avoiding ==> r.currentSpeed == n.runSpeed
    ensures r.mood == n.mood && r.energy == n.energy && r.base == n.base
    ensures r.moveSpeed == n.moveSpeed && r.runSpeed == n.runSpeed && r.personality == n.personality
  {
    if n.state == s then n else OnStateChange(n.(state := s, stateTimer := 0.0), s)
  }

  // ---------------------------------------------------------------------------
  // Perception

  /** `canSeePlayer`: within the detection radius and inside the field of view. */
  predicate CanSee(n: Smart, player: Vec3, facing: bool) {
    WithinDist(n.base.position, player, n.detectionRadius) && facing
  }

  predicate IsClose(n: Smart, player: Vec3) {
    WithinDist(n.base.position, player, n.detectionRadius)
  }

  predicate IsVeryClose(n: Smart, player: Vec3) {
    WithinDist(n.base.position, player, n.interactionRadius)
  }

  predicate IsTooClose(n: Smart, player: Vec3) {
    WithinDist(n.base.position, player, n.personalSpace)
  }

  // ---------------------------------------------------------------------------
  // Reaction to the player

  /** `playfulBehavior`: follow on a low draw, otherwise circle the player at
      running speed. */
  function PlayfulBehavior(n: Smart, d: Draws): (r: Smart)
    ensures d.playful < 0.5 ==> r == ChangeState(n, Following)
    ensures d.playful >= 0.5 ==> r.state == n.state && r.stateTimer == n.stateTimer
                                 && r.hasTarget && r.currentSpeed == n.runSpeed
    ensures r.mood == n.mood && r.energy == n.energy && r.base == n.base
    ensures r.moveSpeed == n.moveSpeed && r.runSpeed == n.runSpeed && r.personality == n.personality
  {
    if d.playful < 0.5 then ChangeState(n, Following)
    else n.(hasTarget := true, currentSpeed := n.runSpeed)
  }

  /** `reactToPlayer`: what each personality does when it notices the player. */
  function ReactToPlayer(n: Smart, player: Vec3, d: Draws): (r: Smart)
    ensures n.personality == Personality.Curious ==> r == ChangeState(n, Following)
    ensures n.personality == Shy ==>
              r == ChangeState(n, if CloserThan(n.base.position, player, n.personalSpace * 1.5) then Avoiding else AiState.Curious)
    ensures n.personality == Lazy && !CloserThan(n.base.position, player, n.interactionRadius) ==> r == n
    ensures n.personality == Lazy && CloserThan(n.base.position, player, n.interactionRadius) ==>
              r == ChangeState(n, AiState.Curious)
    ensures n.personality == Friendly ==> r == ChangeState(n, if d.react < 0.3 then Following else AiState.Curious)
    ensures n.personality == Playful ==>
              r == (if d.react < 0.4 then ChangeState(n, Following) else PlayfulBehavior(n, d))
    ensures n.personality == Other ==> r == n
    ensures r.mood == n.mood && r.energy == n.energy && r.base == n.base
  {
    match n.personality
    case Friendly => if d.react < 0.3 then ChangeState(n, Following) else ChangeState(n, AiState.Curious)
    case Shy =>
      if CloserThan(n.base.position, player, n.personalSpace * 1.5) then ChangeState(n, Avoiding)
      else ChangeState(n, AiState.Curious)
    case Curious => ChangeState(n, Following)
    case Playful => if d.react < 0.4 then ChangeState(n, Following) else PlayfulBehavior(n, d)
    case Lazy =>
      if CloserThan(n.base.position, player, n.interactionRadius) then ChangeState(n, AiState.Curious) else n
    case Other => n
  }

  /** What a reaction can lead to: the NPC turns to following, curiosity or
      avoidance, or stays in its state (lazy, playful or unknown personality
      only). Only a shy NPC starts avoiding, only a playful one starts
      circling, and no reaction changes the configured speeds. */
  lemma ReactionOutcomes(n: Smart, player: Vec3, d: Draws)
    ensures var r := ReactToPlayer(n, player, d);
            && (r.state == Avoiding && n.state != Avoiding ==> n.personality == Shy)
            && (r.hasTarget && !n.hasTarget ==> n.personality == Playful)
            && (r.state !in {Following, AiState.Curious, Avoiding} ==> r.state == n.state && n.personality in {Lazy, Playful, Other})
            && r.moveSpeed == n.moveSpeed && r.runSpeed == n.runSpeed
  {
  }

  // ---------------------------------------------------------------------------
  // One AI frame

  /** The transition switch of `updateAI`, after the state timer has advanced. */
  function Transition(n: Smart, player: Vec3, facing: bool, d: Draws): (r: Smart)
    ensures r.mood == n.mood && r.energy == n.energy && r.base == n.base
    ensures r.moveSpeed == n.moveSpeed && r.runSpeed == n.runSpeed
  {
    var seen := CanSee(n, player, facing);
    var close := IsClose(n, player);
    var veryClose := IsVeryClose(n, player);
    match n.state
    case Idle =>
      if veryClose && seen then ChangeState(n, Interacting)
      else if close && seen then ReactToPlayer(n, player, d)
      else if n.stateTimer > 3.0 + d.idleWait * 5.0 then ChangeState(n, Wandering)
      else n
    case Wandering =>
      if veryClose && seen then ChangeState(n, Interacting)
      else if close && seen then ReactToPlayer(n, player, d)
      else if n.stateTimer > 5.0 + d.wanderWait * 10.0 then ChangeState(n, Idle)
      else n
    case Curious =>
      if veryClose then ChangeState(n, Interacting)
      else if !close || n.stateTimer > n.attentionSpan then ChangeState(n, Idle)
      else n
    case Following =>
      if veryClose then ChangeState(n, Interacting)
      else if !WithinDist(n.base.position, player, n.followRadius) || n.stateTimer > 15.0 then ChangeState(n, Idle)
      else n
    case Avoiding =>
      if !close then ChangeState(n, Idle)
      else if IsTooClose(n, player) then n.(currentSpeed := n.runSpeed)
      else n
    case Interacting =>
      if !veryClose || n.stateTimer > 10.0 then ChangeState(n, Idle)
      else n
  }

  /** `moveToTarget`'s bookkeeping: with a target set, the NPC counts as moving
      above 0.1 units per second and as running above 1.5 times its move speed. */
  function MoveToTarget(n: Smart): Smart {
    if !n.hasTarget then n
    else n.(isMoving := n.currentSpeed > 0.1, isRunning := n.currentSpeed > n.moveSpeed * 1.5)
  }

  /** `executeStateAction`. */
  function StateAction(n: Smart, player: Vec3, d: Draws): (r: Smart)
    ensures r.mood == n.mood && r.energy == n.energy && r.base == n.base
    ensures r.moveSpeed == n.moveSpeed && r.runSpeed == n.runSpeed && r.state == n.state
  {
    match n.state
    case Wandering => MoveToTarget(n.(hasTarget := true))
    case Following =>
      if !WithinDist(n.base.position, player, n.interactionRadius * 1.5)
      then MoveToTarget(n.(hasTarget := true)) else n
    case Avoiding => MoveToTarget(n.(currentSpeed := n.runSpeed, hasTarget := true))
    case Curious =>
      var looking := n.(isLookingAtPlayer := true, hasTarget := n.hasTarget || d.observe < 0.002);
      MoveToTarget(looking)
    case Interacting => n.(isLookingAtPlayer := true, currentSpeed := 0.0)
    case Idle => n
  }

  /** `updateAI`: advance the state timer, take the transition, then run the
      new state's action. */
  function UpdateAi(n: Smart, player: Vec3, facing: bool, dt: real, d: Draws): (r: Smart)
    ensures r.mood == n.mood && r.energy == n.energy && r.base == n.base
    ensures r.moveSpeed == n.moveSpeed && r.runSpeed == n.runSpeed
  {
    StateAction(Transition(n.(stateTimer := n.stateTimer + dt), player, facing, d), player, d)
  }

  /** From `interacting` the NPC returns to `idle` exactly when the player is
      no longer very close or the interaction has lasted more than 10 seconds. */
  lemma InteractingExit(n: Smart, player: Vec3, facing: bool, dt: real, d: Draws)
    requires n.state == Interacting
    ensures var r := UpdateAi(n, player, facing, dt, d);
            (r.state == Idle <==> !IsVeryClose(n, player) || n.stateTimer + dt > 10.0)
            && (r.state == Idle || r.state == Interacting)
  {
  }

  /** From `following`: very close leads to `interacting`; otherwise being
      beyond the follow radius or following for more than 15 seconds leads to
      `idle`; otherwise the NPC keeps following. */
  lemma FollowingExit(n: Smart, player: Vec3, facing: bool, dt: real, d: Draws)
    requires n.state == Following
    ensures var r := UpdateAi(n, player, facing, dt, d);
            && (IsVeryClose(n, player) ==> r.state == Interacting)
            && (!IsVeryClose(n, player) ==>
                  (r.state == Idle <==> !WithinDist(n.base.position, player, n.followRadius) || n.stateTimer + dt > 15.0))
            && r.state in {Interacting, Idle, Following}
  {
  }

  /** From `avoiding` the NPC calms down to `idle` exactly when the player is
      beyond the detection radius; otherwise it keeps avoiding at running speed. */
  lemma AvoidingExit(n: Smart, player: Vec3, facing: bool, dt: real, d: Draws)
    requires n.state == Avoiding
    ensures var r := UpdateAi(n, player, facing, dt, d);
            && (r.state == Idle <==> !IsClose(n, player))
            && (r.state != Idle ==> r.state == Avoiding && r.currentSpeed == n.runSpeed)
  {
  }

  /** Whenever a frame takes the NPC into `idle` its speed is back to its move
      speed, and whenever it takes it into `avoiding` its speed is its run
      speed. */
  lemma EnteringStateSetsSpeed(n: Smart, player: Vec3, facing: bool, dt: real, d: Draws)
    ensures var r := UpdateAi(n, player, facing, dt, d);
            && (n.state != Idle && r.state == Idle ==> r.currentSpeed == n.moveSpeed)
            && (r.state == Avoiding ==> r.currentSpeed == n.runSpeed)
  {
  }

  /** A calm NPC that sees the player very close starts interacting, whatever
      its personality. */
  lemma CalmNpcGreetsPlayer(n: Smart, player: Vec3, dt: real, d: Draws)
    requires n.state == Idle || n.state == Wandering
    requires IsVeryClose(n, player) && IsClose(n, player)
    ensures UpdateAi(n, player, true, dt, d).state == Interacting
  {
  }

  // ---------------------------------------------------------------------------
  // Mood and energy

  /** `updateMoodAndEnergy`. */
  function MoodAndEnergy(n: Smart, dt: real): (r: Smart)
    requires dt >= 0.0
    ensures 0.0 <= n.energy ==> 0.0 <= r.energy <= n.energy || r.energy == 0.0
    ensures r.energy <= Max(0.0, n.energy)
    ensures 0.0 <= n.mood <= 1.0 ==> 0.0 <= r.mood <= 1.0
    ensures r.state == n.state && r.base == n.base
  {
    var drain := if n.isRunning then 0.1 else if n.isMoving then 0.05 else 0.01;
    var energy := Max(0.0, n.energy - drain * dt);
    var mood :=
      if n.state == Interacting then Min(1.0, n.mood + 0.1 * dt)
      else if n.state == Avoiding then Max(0.0, n.mood - 0.05 * dt)
      else n.mood;
    var tired := n.(energy := energy, mood := mood);
    if energy < 0.3 && n.state == Wandering then tired.(currentSpeed := tired.currentSpeed * 0.5) else tired
  }

  /** Mood and energy stay within [0, 1]. */
  ghost predicate Calm(n: Smart) {
    0.0 <= n.mood <= 1.0 && 0.0 <= n.energy <= 1.0 && N.WellFormed(n.base)
  }

  /** `SmartNPC.update`: the base cooldown tick, then (only once a player has
      been set) the AI frame followed by mood and energy. */
  function Update(n: Smart, player: Option<Vec3>, facing: bool, dt: real, d: Draws): (r: Smart)
    requires dt >= 0.0
    ensures Calm(n) ==> Calm(r) && r.energy <= n.energy
    ensures player.None? ==> r.state == n.state && r.mood == n.mood && r.energy == n.energy
  {
    var ticked := n.(base := N.Tick(n.base, dt));
    if player.None? then ticked
    else MoodAndEnergy(UpdateAi(ticked, player.value, facing, dt, d), dt)
  }

  /** One frame's inputs. */
  datatype Frame = Frame(player: Option<Vec3>, facing: bool, dt: real, draws: Draws)

  function Run(n: Smart, frames: seq<Frame>): Smart
    requires forall i :: 0 <= i < |frames| ==> frames[i].dt >= 0.0
    decreases |frames|
  {
    if |frames| == 0 then n else Run(Update(n, frames[0].player, frames[0].facing, frames[0].dt, frames[0].draws), frames[1..])
  }

  /** Over any run of frames, mood and energy stay within [0, 1] and energy
      never increases. */
  lemma {:induction false} RunStaysCalm(n: Smart, frames: seq<Frame>)
    requires Calm(n)
    requires forall i :: 0 <= i < |frames| ==> frames[i].dt >= 0.0
    ensures Calm(Run(n, frames)) && Run(n, frames).energy <= n.energy
    decreases |frames|
  {
    if |frames| > 0 {
      var f := frames[0];
      RunStaysCalm(Update(n, f.player, f.facing, f.dt, f.draws), frames[1..]);
    }
  }

  // ---------------------------------------------------------------------------
  // The interact override

  /** `SmartNPC.interact`: refused with no change while the cooldown runs;
      otherwise the NPC enters `interacting`, its mood rises by 0.2 up to 1, and
      the base interaction (dialog line, cooldown) follows. */
  function Interact(n: Smart): (r: (Smart, bool))
    requires N.WellFormed(n.base)
    ensures !r.1 <==> n.base.cooldown > 0.0
    ensures !r.1 ==> r.0 == n
    ensures r.1 ==> r.0.state == Interacting && r.0.base.isInteracting
    ensures r.1 ==> r.0.base.cooldown == N.InteractionCooldown
    ensures r.1 && n.mood <= 1.0 ==> n.mood <= r.0.mood <= 1.0
    ensures r.1 ==> r.0.mood == Min(1.0, n.mood + 0.2)
    ensures r.1 ==> r.0.base == N.Interact(n.base).0 && N.Interact(n.base).1
    ensures Calm(n) ==> Calm(r.0)
  {
    if n.base.cooldown > 0.0 then (n, false)
    else
      var entered := ChangeState(n, Interacting);
      var cheered := entered.(mood := Min(1.0, entered.mood + 0.2));
      var (b, ok, _) := N.Interact(cheered.base);
      (cheered.(base := b), ok)
  }

  /** Neither the AI frames nor the interact override touch the trade offer. */
  lemma TradeOfferSurvives(n: Smart, player: Option<Vec3>, facing: bool, dt: real, d: Draws)
    requires dt >= 0.0 && N.WellFormed(n.base)
    ensures Update(n, player, facing, dt, d).base.tradeItems == n.base.tradeItems
    ensures Interact(n).0.base.tradeItems == n.base.tradeItems
    ensures N.CanTrade(Update(n, player, facing, dt, d).base) <==> N.CanTrade(n.base)
    ensures N.CanTrade(Interact(n).0.base) <==> N.CanTrade(n.base)
  {
  }
}

=== FILE: trade.dfy ===
/** Trading with an NPC (js/Game.js): `Game.executeTrade` over the trade
    panel's selections, and the `TradeSystem` class with its bounded,
    newest-first trade history. */
module Trade {
  import opened Catalog
  import opened Inventory
  import opened Selection

  const MaxTradeHistory: int := 50

  // ---------------------------------------------------------------------------
  // Moving a list of items

  /** Every listed name is held at least once (`hasItem(name)` for each). */
  predicate AllHeld(s: State, names: seq<string>) {
    forall i :: 0 <= i < |names| ==> Has(s.bag, names[i], 1)
  }

  /** `names.forEach(n => removeItem(n, 1))`; failures are ignored. */
  function RemoveEach(s: State, names: seq<string>): State
    decreases |names|
  {
    if |names| == 0 then s else RemoveEach(RemoveItem(s, names[0], 1).state, names[1..])
  }

  /** `names.forEach(n => addItem(n, 1))`; failures are ignored. */
  function AddEach(s: State, names: seq<string>): State
    decreases |names|
  {
    if |names| == 0 then s else AddEach(AddItem(s, names[0], 1).state, names[1..])
  }

  /** `getTradeValue`: the sum of the items' values. */
  function TradeValue(names: seq<string>): int
    decreases |names|
  {
    if |names| == 0 then 0 else ValueOf(names[0]) + TradeValue(names[1..])
  }

  lemma {:induction false} TradeValueAppend(a: seq<string>, b: seq<string>)
    ensures TradeValue(a + b) == TradeValue(a) + TradeValue(b)
    decreases |a|
  {
    if |a| == 0 {
      assert a + b == b;
    } else {
      assert (a + b)[0] == a[0];
      assert (a + b)[1..] == a[1..] + b;
      TradeValueAppend(a[1..], b);
    }
  }

  /** A value is never negative, so neither is the value of a list. */
  lemma {:induction false} TradeValueNonNegative(names: seq<string>)
    ensures TradeValue(names) >= 0
    decreases |names|
  {
    if |names| > 0 { TradeValueNonNegative(names[1..]); }
  }

  lemma HasIsCountAtLeastOne(t: Tally, n: string)
    ensures Has(t, n, 1) <==> Count(t.counts, n) >= 1
  {
  }

  /** After removing one of the first item, the other items of a
      duplicate-free held list are still held. */
  lemma RestStillHeld(s: State, p: seq<string>)
    requires Valid(s) && NoDup(p) && AllHeld(s, p) && |p| > 0
    ensures AllHeld(RemoveItem(s, p[0], 1).state, p[1..])
  {
    var s1 := RemoveItem(s, p[0], 1).state;
    var rest := p[1..];
    forall i | 0 <= i < |rest| ensures Has(s1.bag, rest[i], 1) {
      assert rest[i] == p[i + 1] && p[i + 1] != p[0];
      HasIsCountAtLeastOne(s.bag, rest[i]);
      HasIsCountAtLeastOne(s1.bag, rest[i]);
    }
  }

  /** Removing one of each of distinct held items takes exactly one of each
      away, keeps the inventory valid and lowers its worth by their value. */
  lemma {:induction false} RemoveEachEffect(s: State, p: seq<string>)
    requires Valid(s) && NoDup(p) && AllHeld(s, p)
    ensures Valid(RemoveEach(s, p))
    ensures RemoveEach(s, p).storage == s.storage
    ensures RemoveEach(s, p).bag.current == s.bag.current - |p|
    ensures forall n :: Count(RemoveEach(s, p).bag.counts, n) == Count(s.bag.counts, n) - (if n in p then 1 else 0)
    ensures Worth(RemoveEach(s, p).bag.counts) == Worth(s.bag.counts) - TradeValue(p)
    decreases |p|
  {
    if |p| > 0 {
      var s1 := RemoveItem(s, p[0], 1).state;
      RemoveItemKeepsValid(s, p[0], 1);
      TotalValueTracksChanges(s, p[0], 1);
      NoDupTail(p);
      RestStillHeld(s, p);
      RemoveEachEffect(s1, p[1..]);
    }
  }

  /** Adding one of each of known items to a bag with room for all of them
      adds every one, keeps the inventory valid and raises its worth by their
      value. */
  lemma {:induction false} AddEachEffect(s: State, items: seq<string>)
    requires Valid(s)
    requires forall i :: 0 <= i < |items| ==> Known(items[i])
    requires s.bag.current + |items| <= BagLimit
    ensures Valid(AddEach(s, items))
    ensures AddEach(s, items).storage == s.storage
    ensures AddEach(s, items).bag.current == s.bag.current + |items|
    ensures forall n :: Count(AddEach(s, items).bag.counts, n) == Count(s.bag.counts, n) + multiset(items)[n]
    ensures Worth(AddEach(s, items).bag.counts) == Worth(s.bag.counts) + TradeValue(items)
    decreases |items|
  {
    if |items| > 0 {
      var s1 := AddItem(s, items[0], 1).state;
      AddItemKeepsValid(s, items[0], 1);
      TotalValueTracksChanges(s, items[0], 1);
      AddEachEffect(s1, items[1..]);
      assert items == [items[0]] + items[1..];
      assert forall n :: multiset(items)[n] == multiset([items[0]])[n] + multiset(items[1..])[n];
    }
  }

  // ---------------------------------------------------------------------------
  // Game.executeTrade

  /** The trade panel: the inventory and the two selection lists. */
  datatype Session = Session(inventory: State, playerItems: seq<string>, npcItems: seq<string>)

  /** `Game.executeTrade` as written: refuse an empty selection or a selected
      player item that is not held; otherwise remove one of each player item,
      add one of each NPC item (ignoring refused adds) and clear both
      selections. */
  function ExecuteTrade(g: Session): (r: Session)
    ensures |g.playerItems| == 0 || |g.npcItems| == 0 ==> r == g
    ensures !AllHeld(g.inventory, g.playerItems) ==> r == g
    ensures r != g ==> r.playerItems == [] && r.npcItems == []
  {
    if |g.playerItems| == 0 || |g.npcItems| == 0 then g
    else if !AllHeld(g.inventory, g.playerItems) then g
    else Session(AddEach(RemoveEach(g.inventory, g.playerItems), g.npcItems), [], [])
  }

  /** Whenever the bag has room for what the NPC gives, a trade of distinct
      held items hands over exactly one of each selected item in each direction
      and moves the bag's worth by the difference of the two lists' values. */
  lemma ExecuteTradeWithRoom(g: Session)
    requires Valid(g.inventory) && NoDup(g.playerItems)
    requires |g.playerItems| > 0 && |g.npcItems| > 0 && AllHeld(g.inventory, g.playerItems)
    requires forall i :: 0 <= i < |g.npcItems| ==> Known(g.npcItems[i])
    requires g.inventory.bag.current - |g.playerItems| + |g.npcItems| <= BagLimit
    ensures var r := ExecuteTrade(g);
            && Valid(r.inventory)
            && r.playerItems == [] && r.npcItems == []
            && (forall n :: Count(r.inventory.bag.counts, n)
                  == Count(g.inventory.bag.counts, n) - (if n in g.playerItems then 1 else 0) + multiset(g.npcItems)[n])
            && Worth(r.inventory.bag.counts)
                 == Worth(g.inventory.bag.counts) - TradeValue(g.playerItems) + TradeValue(g.npcItems)
  {
    RemoveEachEffect(g.inventory, g.playerItems);
    AddEachEffect(RemoveEach(g.inventory, g.playerItems), g.npcItems);
  }

  /** As written, a trade can silently lose what the NPC gives: with a full bag
      of 50 apples, giving one apple for a carrot and a cabbage removes the
      apple, adds the carrot, refuses the cabbage, and still reports the trade
      complete by clearing the selections. */
  lemma TradeLosesItemsAsWritten()
    ensures var g := Session(State(Tally(map["사과" := 50], 50), Tally(map[], 0)), ["사과"], ["당근", "양배추"]);
            var r := ExecuteTrade(g);
            && Valid(g.inventory)
            && r.playerItems == [] && r.npcItems == []
            && Count(r.inventory.bag.counts, "사과") == 49
            && Count(r.inventory.bag.counts, "당근") == 1
            && Count(r.inventory.bag.counts, "양배추") == 0
  {
    SumSingleton("사과", 50, One);
    assert Total(map[]) == 0;
    var s0 := State(Tally(map["사과" := 50], 50), Tally(map[], 0));
    var s1 := RemoveItem(s0, "사과", 1).state;
    assert s1.bag == Tally(map["사과" := 49], 49);
    assert RemoveEach(s0, ["사과"]) == RemoveEach(s1, []);
    var s2 := AddItem(s1, "당근", 1).state;
    assert s2.bag.current == 50;
    var s3 := AddItem(s2, "양배추", 1).state;
    assert s3 == s2;
    assert AddEach(s1, ["당근", "양배추"]) == AddEach(s2, ["양배추"]);
    assert AddEach(s2, ["양배추"]) == AddEach(s3, []);
  }

  /** The evidently intended trade: also refuse when an NPC item is not in the
      catalogue or the bag cannot hold the NPC's items once the player's are
      gone, so that a completed trade always delivers everything. */
  function ExecuteTradeChecked(g: Session): (r: Session)
    ensures |g.playerItems| == 0 || |g.npcItems| == 0 ==> r == g
    ensures !AllHeld(g.inventory, g.playerItems) ==> r == g
    ensures g.inventory.bag.current - |g.playerItems| + |g.npcItems| > BagLimit ==> r == g
  {
    if |g.playerItems| == 0 || |g.npcItems| == 0 then g
    else if !AllHeld(g.inventory, g.playerItems) then g
    else if exists i :: 0 <= i < |g.npcItems| && !Known(g.npcItems[i]) then g
    else if g.inventory.bag.current - |g.playerItems| + |g.npcItems| > BagLimit then g
    else Session(AddEach(RemoveEach(g.inventory, g.playerItems), g.npcItems), [], [])
  }

  /** With the checked trade, every completed trade from a valid inventory with
      distinct selected player items (as the toggles guarantee) hands over
      exactly one of each item in each direction, keeps the inventory valid,
      and moves its worth by the difference of the two lists' values; a trade
      that does not complete leaves everything as it was. */
  lemma ExecuteTradeCheckedDelivers(g: Session)
    requires Valid(g.inventory) && NoDup(g.playerItems)
    ensures var r := ExecuteTradeChecked(g);
            && Valid(r.inventory)
            && (r == g || (r.playerItems == [] && r.npcItems == []))
            && (r != g ==>
                  && (forall n :: Count(r.inventory.bag.counts, n)
                        == Count(g.inventory.bag.counts, n) - (if n in g.playerItems then 1 else 0) + multiset(g.npcItems)[n])
                  && Worth(r.inventory.bag.counts)
                       == Worth(g.inventory.bag.counts) - TradeValue(g.playerItems) + TradeValue(g.npcItems))
  {
    var r := ExecuteTradeChecked(g);
    if r != g {
      ExecuteTradeWithRoom(g);
    }
  }

  // ---------------------------------------------------------------------------
  // TradeSystem

  datatype TradeRecord = TradeRecord(timestamp: int, playerItems: seq<string>, npcItems: seq<string>, npcName: string)

  datatype TradeSystem = TradeSystem(inventory: State, history: seq<TradeRecord>)

  /** `TradeSystem.canTrade`: every player item is held; the NPC items play no part. */
  function CanTrade(s: State, playerItems: seq<string>, npcItems: seq<string>): (ok: bool)
    ensures ok <==> forall n :: n in playerItems ==> Count(s.bag.counts, n) >= 1
  {
    forall i | 0 <= i < |playerItems| ensures Has(s.bag, playerItems[i], 1) <==> Count(s.bag.counts, playerItems[i]) >= 1 {
      HasIsCountAtLeastOne(s.bag, playerItems[i]);
    }
    AllHeld(s, playerItems)
  }

  /** `addTradeRecord`: the new record goes first and the history is cut back
      to its first 50 entries. */
  function AddTradeRecord(history: seq<TradeRecord>, rec: TradeRecord): (r: seq<TradeRecord>)
    ensures |r| == if |history| + 1 > MaxTradeHistory then MaxTradeHistory else |history| + 1
    ensures |r| >= 1 && r[0] == rec
    ensures forall i :: 1 <= i < |r| ==> r[i] == history[i - 1]
  {
    var h := [rec] + history;
    if |h| > MaxTradeHistory then h[..MaxTradeHistory] else h
  }

  /** `TradeSystem.executeTrade`; the clock reading for the record's timestamp
      is a parameter. */
  function ExecuteRecordedTrade(t: TradeSystem, playerItems: seq<string>, npcItems: seq<string>,
                                npcName: string, now: int): (r: (TradeSystem, bool))
    ensures !r.1 ==> r.0 == t
    ensures r.1 <==> CanTrade(t.inventory, playerItems, npcItems)
    ensures r.1 ==> |r.0.history| > 0 && r.0.history[0] == TradeRecord(now, playerItems, npcItems, npcName)
  {
    if !CanTrade(t.inventory, playerItems, npcItems) then (t, false)
    else
      var inv := AddEach(RemoveEach(t.inventory, playerItems), npcItems);
      (TradeSystem(inv, AddTradeRecord(t.history, TradeRecord(now, playerItems, npcItems, npcName))), true)
  }

  /** With both lists non-empty, `TradeSystem.executeTrade` and the trade
      panel's `executeTrade` accept the same trades and leave the same
      inventory; only the panel refuses empty lists. */
  lemma RecordedTradeAgreesWithPanel(t: TradeSystem, playerItems: seq<string>, npcItems: seq<string>,
                                     npcName: string, now: int)
    ensures |playerItems| > 0 && |npcItems| > 0 ==>
              ExecuteRecordedTrade(t, playerItems, npcItems, npcName, now).0.inventory
                == ExecuteTrade(Session(t.inventory, playerItems, npcItems)).inventory
    ensures |playerItems| > 0 && |npcItems| > 0 ==>
              (ExecuteRecordedTrade(t, playerItems, npcItems, npcName, now).1 <==>
               ExecuteTrade(Session(t.inventory, playerItems, npcItems)).playerItems == [])
  {
  }

  /** The history never holds more than 50 records, whatever sequence of
      trades follows. */
  lemma {:induction false} HistoryStaysBounded(t: TradeSystem, trades: seq<(seq<string>, seq<string>, string, int)>)
    requires |t.history| <= MaxTradeHistory
    ensures |Replay(t, trades).history| <= MaxTradeHistory
    decreases |trades|
  {
    if |trades| > 0 {
      var (p, n, name, now) := trades[0];
      HistoryStaysBounded(ExecuteRecordedTrade(t, p, n, name, now).0, trades[1..]);
    }
  }

  /** A series of `TradeSystem.executeTrade` calls. */
  function Replay(t: TradeSystem, trades: seq<(seq<string>, seq<string>, string, int)>): TradeSystem
    decreases |trades|
  {
    if |trades| == 0 then t
    else
      var (p, n, name, now) := trades[0];
      Replay(ExecuteRecordedTrade(t, p, n, name, now).0, trades[1..])
  }
}

=== FILE: world.dfy ===
/** The game's glue between the player, the NPCs, the buildings and the
    collectibles (`Game.checkCollectibles`, `Game.handlePlayerInteraction` and
    `Game.handleCollectibleInteraction` in js/Game.js). */
module World {
  import opened Geometry
  import opened Maybe
  import opened Catalog
  import I = Inventory
  import E = Environment
  import S = SmartNpc
  import N = Npc
  import M = NpcManager
  import T = Trade
  import Sel = Selection

  datatype World = World(
    inventory: I.State,
    npcs: seq<S.Smart>,
    items: seq<E.Item>,
    buildings: seq<E.Building>,
    currentNpc: Option<nat>)

  /** The radius `checkCollectibles` picks items up within. */
  const PickupRadius: real := 2.0

  /** The inventory name of a collectible: a fruit's kind, a mushroom's kind,
      otherwise its object type. */
  function ItemName(k: E.Kind): (name: string)
    ensures k.Fruit? ==> name == k.fruitType
    ensures k.Mushroom? ==> name == k.mushroomType
    ensures k.Plain? ==> name == k.typeName
  {
    match k
    case Fruit(t) => t
    case Mushroom(t) => t
    case Plain(t) => t
  }

  /** Everything the environment scatters has a name the inventory knows. */
  predicate Catalogued(items: seq<E.Item>) {
    forall i :: 0 <= i < |items| ==> Known(ItemName(items[i].kind))
  }

  lemma ScatteredItemsCatalogued(fruit: seq<E.Item>, mushrooms: seq<E.Item>)
    requires forall i :: 0 <= i < |fruit| ==> fruit[i].kind.Fruit? && fruit[i].kind.fruitType in E.FruitTypes
    requires forall i :: 0 <= i < |mushrooms| ==>
               mushrooms[i].kind.Mushroom? && mushrooms[i].kind.mushroomType in {"빨간버섯", "갈색버섯"}
    ensures Catalogued(fruit + mushrooms)
  {
    forall i | 0 <= i < |fruit + mushrooms|
      ensures Known(ItemName((fruit + mushrooms)[i].kind))
    {
      if i < |fruit| {
        assert (fruit + mushrooms)[i] == fruit[i];
        var t := fruit[i].kind.fruitType;
        assert t in E.FruitTypes;
        assert t == "사과" || t == "오렌지" || t == "바나나" || t == "포도" || t == "딸기" || t == "배";
      } else {
        assert (fruit + mushrooms)[i] == mushrooms[i - |fruit|];
      }
    }
  }

  /** Picking up the collectible nearest in list order: the item goes into the
      bag and leaves the world together, or neither happens. */
  function PickUp(inv: I.State, items: seq<E.Item>, at: Vec3, radius: real): (r: (I.State, seq<E.Item>, bool))
    ensures E.GetCollectibleAt(items, at, radius).None? ==> r == (inv, items, false)
    ensures r.2 <==> E.GetCollectibleAt(items, at, radius).Some?
                     && Known(ItemName(items[E.GetCollectibleAt(items, at, radius).value].kind))
                     && inv.bag.current < I.BagLimit
    ensures !r.2 ==> r.0 == inv && r.1 == items
    ensures r.2 ==> var i := E.GetCollectibleAt(items, at, radius).value;
                    && r.1 == items[..i] + items[i + 1..]
                    && r.0 == I.AddItem(inv, ItemName(items[i].kind), 1).state
                    && I.Count(r.0.bag.counts, ItemName(items[i].kind))
                       == I.Count(inv.bag.counts, ItemName(items[i].kind)) + 1
    ensures r.0.storage == inv.storage
  {
    match E.GetCollectibleAt(items, at, radius)
    case None => (inv, items, false)
    case Some(i) =>
      var name := ItemName(items[i].kind);
      var step := I.AddItem(inv, name, 1);
      if step.ok then (step.state, E.RemoveCollectible(items, i).0, true) else (inv, items, false)
  }

  /** Picking up keeps the inventory's invariants: one item at a time never
      overfills the bag. */
  lemma PickUpKeepsValid(inv: I.State, items: seq<E.Item>, at: Vec3, radius: real)
    ensures I.Valid(inv) ==> I.Valid(PickUp(inv, items, at, radius).0)
  {
    if I.Valid(inv) {
      match E.GetCollectibleAt(items, at, radius)
      case None =>
      case Some(i) => I.AddItemKeepsValid(inv, ItemName(items[i].kind), 1);
    }
  }

  /** Among catalogued items a reachable one is left lying only when the bag
      is full. */
  lemma PickUpFailsOnlyWhenFull(inv: I.State, items: seq<E.Item>, at: Vec3, radius: real)
    requires Catalogued(items)
    requires E.GetCollectibleAt(items, at, radius).Some?
    ensures PickUp(inv, items, at, radius).2 <==> inv.bag.current < I.BagLimit
  {
  }

  /** `checkCollectibles`: every frame, the player picks up what lies within 2. */
  function CheckCollectibles(w: World, player: Vec3): (r: World)
    ensures r.npcs == w.npcs && r.buildings == w.buildings && r.currentNpc == w.currentNpc
    ensures I.Valid(w.inventory) ==> I.Valid(r.inventory)
    ensures |r.items| == |w.items| || |r.items| == |w.items| - 1
    ensures r.inventory == PickUp(w.inventory, w.items, player, PickupRadius).0
    ensures r.items == PickUp(w.inventory, w.items, player, PickupRadius).1
  {
    var (inv, items, _) := PickUp(w.inventory, w.items, player, PickupRadius);
    PickUpKeepsValid(w.inventory, w.items, player, PickupRadius);
    w.(inventory := inv, items := items)
  }

  /** What the interaction key does. */
  datatype Reaction =
    | TalkTo(npc: nat)
    | EnterBuilding(building: nat)
    | Gather(picked: bool)
    | NoReaction

  /** `handlePlayerInteraction`: an NPC that answers takes precedence, then a
      building within reach, then a collectible within reach. Entering a
      building only opens dialogs or the storage window, which the model leaves
      to the interface. */
  method HandlePlayerInteraction(w: World, at: Vec3, distance: real) returns (r: World, what: Reaction)
    requires forall i :: 0 <= i < |w.npcs| ==> N.WellFormed(w.npcs[i].base)
    ensures what.TalkTo? <==> exists i :: 0 <= i < |w.npcs| && M.Ready(w.npcs[i], at, distance)
    ensures what.TalkTo? ==> r.currentNpc == Some(what.npc) && r.items == w.items && r.inventory == w.inventory
    ensures |r.npcs| == |w.npcs|
    ensures what.TalkTo? ==> what.npc < |w.npcs| && M.Ready(w.npcs[what.npc], at, distance)
                             && (forall j :: 0 <= j < what.npc ==> !M.Ready(w.npcs[j], at, distance))
                             && r.npcs[what.npc] == S.Interact(w.npcs[what.npc]).0
    ensures forall i :: 0 <= i < |w.npcs| && what != TalkTo(i) ==> r.npcs[i] == w.npcs[i]
    ensures !what.TalkTo? ==> r.npcs == w.npcs && r.currentNpc == w.currentNpc
    ensures what.EnterBuilding? <==>
              (forall i :: 0 <= i < |w.npcs| ==> !M.Ready(w.npcs[i], at, distance))
              && E.GetBuildingAt(w.buildings, at, distance).Some?
    ensures what.EnterBuilding? ==> what.building == E.GetBuildingAt(w.buildings, at, distance).value && r == w
    ensures what.Gather? <==>
              (forall i :: 0 <= i < |w.npcs| ==> !M.Ready(w.npcs[i], at, distance))
              && E.GetBuildingAt(w.buildings, at, distance).None?
              && E.GetCollectibleAt(w.items, at, distance).Some?
    ensures what.Gather? ==> (r.inventory, r.items, what.picked) == PickUp(w.inventory, w.items, at, distance)
    ensures what.NoReaction? ==> r == w
    ensures I.Valid(w.inventory) ==> I.Valid(r.inventory)
  {
    var npcs, hit := M.HandlePlayerInteraction(w.npcs, at, distance);
    if hit.Some? {
      r := w.(npcs := npcs, currentNpc := hit);
      what := TalkTo(hit.value);
      return;
    }
    var building := E.GetBuildingAt(w.buildings, at, distance);
    if building.Some? {
      r := w;
      what := EnterBuilding(building.value);
      return;
    }
    if E.GetCollectibleAt(w.items, at, distance).Some? {
      var (inv, items, picked) := PickUp(w.inventory, w.items, at, distance);
      PickUpKeepsValid(w.inventory, w.items, at, distance);
      r := w.(inventory := inv, items := items);
      what := Gather(picked);
    } else {
      r := w;
      what := NoReaction;
    }
  }

  // ---------------------------------------------------------------------------
  // Closing the dialog and completing a trade

  /** `closeDialog` (also reached through `closeTradeModal`): the NPC being
      talked to ends its interaction and is forgotten. Its dialog position,
      cooldown and AI state stay as they are, and nothing else in the world
      changes. */
  function CloseDialog(w: World): (r: World)
    ensures r.currentNpc.None?
    ensures r.inventory == w.inventory && r.items == w.items && r.buildings == w.buildings
    ensures |r.npcs| == |w.npcs|
    ensures forall i :: 0 <= i < |w.npcs| && w.currentNpc != Some(i) ==> r.npcs[i] == w.npcs[i]
    ensures forall i :: 0 <= i < |w.npcs| && w.currentNpc == Some(i) ==>
              !r.npcs[i].base.isInteracting
              && r.npcs[i].state == w.npcs[i].state
              && r.npcs[i].base.cooldown == w.npcs[i].base.cooldown
              && r.npcs[i].base.dialogIndex == w.npcs[i].base.dialogIndex
              && (!w.npcs[i].base.isInteracting ==> r.npcs[i] == w.npcs[i])
  {
    match w.currentNpc
    case None => w
    case Some(i) =>
      if i < |w.npcs| then
        w.(npcs := w.npcs[i := w.npcs[i].(base := N.EndInteraction(w.npcs[i].base))], currentNpc := None)
      else w.(currentNpc := None)
  }

  /** `executeTrade` in the game: a trade goes through exactly when both
      selections are non-empty and every selected player item is held; it then
      updates the inventory as the trade panel does and closes the trade window
      and the dialog. A refused trade changes nothing. */
  function Trade(w: World, playerItems: seq<string>, npcItems: seq<string>): (r: (World, bool))
    ensures r.1 <==> |playerItems| > 0 && |npcItems| > 0 && T.AllHeld(w.inventory, playerItems)
    ensures !r.1 ==> r.0 == w
    ensures r.1 ==> r.0.inventory == T.ExecuteTrade(T.Session(w.inventory, playerItems, npcItems)).inventory
    ensures r.1 ==> r.0.currentNpc.None? && r.0.items == w.items && |r.0.npcs| == |w.npcs|
    ensures r.1 ==> forall i :: 0 <= i < |w.npcs| ==>
              r.0.npcs[i] == w.npcs[i] || (w.currentNpc == Some(i) && !r.0.npcs[i].base.isInteracting)
  {
    var g := T.ExecuteTrade(T.Session(w.inventory, playerItems, npcItems));
    if |playerItems| > 0 && |npcItems| > 0 && T.AllHeld(w.inventory, playerItems) then
      (CloseDialog(w.(inventory := g.inventory)), true)
    else (w, false)
  }

  /** With room in the bag for what the NPC gives, a completed trade of
      distinct held items hands over one of each selected item in each
      direction, and the NPC that was being talked to is left free. */
  lemma TradeDelivers(w: World, playerItems: seq<string>, npcItems: seq<string>)
    requires I.Valid(w.inventory) && Sel.NoDup(playerItems)
    requires |playerItems| > 0 && |npcItems| > 0 && T.AllHeld(w.inventory, playerItems)
    requires forall i :: 0 <= i < |npcItems| ==> Known(npcItems[i])
    requires w.inventory.bag.current - |playerItems| + |npcItems| <= I.BagLimit
    requires w.currentNpc.Some? && w.currentNpc.value < |w.npcs|
    ensures var r := Trade(w, playerItems, npcItems).0;
            && I.Valid(r.inventory)
            && (forall n :: I.Count(r.inventory.bag.counts, n)
                  == I.Count(w.inventory.bag.counts, n) - (if n in playerItems then 1 else 0) + multiset(npcItems)[n])
            && !r.npcs[w.currentNpc.value].base.isInteracting
  {
    T.ExecuteTradeWithRoom(T.Session(w.inventory, playerItems, npcItems));
  }
}
